=== FILE: README.md ===
# Distant Skies — a Dafny model of the game's core

Distant Skies is a turn-based console game about colonising a star system.
This project models its core in Dafny and proves properties of the model:

- the celestial generator builds a system of stars, planets and moons, randomly
  or from numeric answers, under the frost-line rule;
- the body index maps lower-cased body names to bodies;
- the console prompts decide which answers they accept;
- the game's state changes: joining players, naming the system, establishing
  colonies, purchasing ships into fleets, and moving fleets.

The main proved property is that no planet or moon ever holds more colonies
than its area allows. A gas giant (area 0) never holds any. This holds after
every sequence of turn operations (`Session.CapacityUnderAnyRun`).

Modules, one per file:

- `Wrappers` (`wrappers.dfy`): `Option` and `Result`.
- `Text` (`text.dfy`): the string operations the game relies on. These are
  `strip()`, ASCII `lower()`, `split()[-1]`, slicing and `str()` of a natural
  number.
- `Helpers` (`helpers.dfy`): `num_choice`, `bool_choice`, `any_choice` and
  `list_choice`. Each one's decision for a single line is a pure function. A
  prompt's retry loop is the first accepted line of a sequence of lines
  (`FirstAnswer`).
- `Entities` (`entities.dfy`): the game's data classes and the build catalogue.
  - Python shares objects between collections. A colony sits in its body's
    `colonies` and in its owner's `owned_colonies`; a fleet sits in a colony's
    `docked` and in its owner's `owned_fleets`.
  - Here each colony and fleet lives once, in an arena (a sequence) of `World`.
    The dictionaries hold arena positions.
  - Owners are positions in the player list. Bodies are referenced by
    `BodyRef`, a planet position or a (planet, moon) position pair.
- `Generation` (`generation.dfy`): `generate_system`, both `rename_system`
  variants' intended behaviour, and `celestial_dict`.
  - Random draws and numeric answers are parameters. Their ranges are the
    supports of `randint` or the bounds `num_choice` enforces.
  - The floating-point frost line appears only through its integer floor
    `frostFloor`. That floor is constrained to lie between sums of integer
    square roots (`FrostBracket`).
- `Play` (`play.dfy`): the operations of `play()`. These are reading the
  system out under its name, both renamings, `establish_colony`,
  `purchase_ship`, `move_fleet` and `join_players`.
- `Session` (`session.dfy`): setup and the turn operations as a state machine,
  with the invariant `Valid` and its preservation.

Two behaviours of the code are easy to misread; the model follows the code
in both:

- Stars are collected in a set of frozen dataclasses compared by
  temperature, so two stars of temperature 4 collapse into one. The frost
  line is then 2 (one `√4`), not 4, and planet 3 is already a gas giant
  (`Generation.TwinStarsCollapse`).
- Manual mode builds one planet fewer than the number entered, because
  `range(1, planet_num)` stops before `planet_num`. Answering 1 (the smallest
  answer accepted) gives a system with no planets. The model keeps this
  behaviour in `Generation.GenerateManual` and uses it in
  `Generation.GenerateSystem`; `Generation.OnePlanetAskedNoneBuilt` exhibits
  the one-planet case. `Generation.GenerateManualCorrected` states the count
  random mode's `range(1, planet_num + 1)` would give, and
  `Generation.ManualDropsLastPlanet` shows that on the same answers the
  game's version loses exactly the last planet.

## Model

| member | source | states |
|---|---|---|
| Text.Strip | helpers.py:134 | The stripped text has no whitespace at either end, and it is empty iff the line is all whitespace. |
| Text.StripIsSlice | helpers.py:134 | The stripped text is the slice of the line that starts where the leading whitespace run ends (`Text.LeadingSpace`: all whitespace, followed by a non-whitespace character or the end) and is followed only by whitespace. |
| Text.LastWord | generation.py:111 | `split()[-1]`: a non-empty run of non-whitespace characters that is a slice of the line, preceded by whitespace or the start of the line and followed only by whitespace. |
| Text.LastWordOfJoin | generation.py:111 | The last word of `prefix + " " + word` is `word` when `word` is a non-empty word, whatever the prefix. |
| Text.NatToStringInjective | generation.py:137-139 | Distinct planet numbers get distinct decimal names. |
| Text.LowerIdempotent | distant_skies.py:236-239 | Lower-casing a name that is already lower-cased changes nothing, so the second `lower()` is harmless. |
| Helpers.FirstAnswer | helpers.py:20-38 | The retry loop returns the first line the decision accepts, with its position; every earlier line was refused; it gives up only when every line is refused. |
| Helpers.NumChoice | helpers.py:11-38 | The answer is an integer line within the bounds (inclusive, upper bound optional); every earlier line was non-numeric or out of range; there is no answer iff every line is. |
| Helpers.NumAcceptsRange | helpers.py:29-33 | With an upper bound, exactly the closed range `lower..upper` is accepted. |
| Helpers.BoolDecision | helpers.py:52-60 | Yes iff the stripped line is not empty and its lower-cased start is the yes word; no iff it is not empty, does not start with the yes word and starts with the no word; refused iff it is empty or starts with neither. |
| Helpers.YesWinsOverNo | helpers.py:55-58 | A line matching both the yes prefix and the no prefix counts as yes. |
| Helpers.LineStartingWithYes | helpers.py:52-56 | Any line starting with a trimmed lower-case yes word is yes, whatever follows it. |
| Helpers.DefaultYesNo | helpers.py:41-58 | With the defaults `y`/`n`, only the first non-blank character decides, case-insensitively. |
| Helpers.BoolChoice | helpers.py:41-60 | The first line answering yes or no decides; no answer iff every line is refused. |
| Helpers.AnyDecision | helpers.py:131-134 | Only the exactly empty line is refused; an accepted line comes back stripped. |
| Helpers.BlankLineGivesEmpty | helpers.py:131-134 | A line of spaces is accepted and yields the empty string. |
| Helpers.AnyChoice | helpers.py:126-134 | The first non-empty line, stripped; no answer iff every line is empty. |
| Helpers.ListDecision | helpers.py:74-102 | A list or set accepts a line iff its lower-cased form is a member; a dictionary accepts every line; the answer is the lower-cased line stripped. |
| Helpers.ListAnswerIsAnOption | helpers.py:77-98 | When the options have no outer whitespace, an accepted answer is one of the options. |
| Entities.WithColonies | distant_skies.py:240 | Updating one body's colonies changes no other body and no name or area. |
| Entities.UncolonisedWithinCapacity | distant_skies.py:77-92 | Bodies without colonies and with non-negative areas satisfy the capacity rule. |
| Entities.SameLayoutCapacity | distant_skies.py:201-207 | Renaming bodies keeps every body, cannot break the capacity rule and colonises nothing. |
| Entities.CatalogKeyedByName | distant_skies.py:128-161 | The catalogue holds exactly the four builds, each filed under its own name. |
| Generation.StarSetNoLarger | generation.py:119-122 | The star set never has more stars than were drawn. |
| Generation.StarSetBounds | generation.py:118-122 | With temperatures in 1..7 there are at most 7 distinct stars. |
| Generation.FloorSqrt | generation.py:125-127 | The integer floor of the square root of a star temperature. |
| Generation.CeilSqrt | generation.py:125-127 | The integer ceiling of the square root of a star temperature. |
| Generation.RandomMoons | generation.py:70-83 | From a stream of drawn areas that may run longer, random mode uses the first adjusted-count-plus-one (the `while moon <= moons_num` loop is inclusive); moon `k` is named planet name plus letter `k`, has the `k`-th drawn area, below the halved size bound, and no colonies. |
| Generation.RandomMoonShape | generation.py:71-76 | The adjusted count is 0..8 (at most 5 below size 6); the area bound is at least 3; a gas giant always gets at least two moons. |
| Generation.ManualMoons | generation.py:85-104 | From an answer stream that may run longer, manual mode uses exactly the answered count of areas (the `while moon < moons_num` loop is exclusive); moon `k` has the `k`-th answered area, in `1..size-1`, and is named by letter. |
| Generation.RandomTerrestrial | generation.py:27-37 | A random terrestrial planet takes the drawn area (3..6) and the random moons drawn for that size, has no colonies, and its moons are smaller than itself. |
| Generation.RandomGasGiant | generation.py:49-55 | A random gas giant has area 0 and at least two moons of area 1..3. |
| Generation.ManualPlanet | generation.py:38-59 | A manual planet, terrestrial or gas giant, takes the answered area (3..10) and the answered moons, and its moons are smaller than it. |
| Generation.RandomPlanet | generation.py:137-142 | Planet `n` is named `str(n)`; it is a gas giant (area 0) iff `n` lies beyond the frost line; otherwise its area is the drawn one, 3..6. |
| Generation.RoundSumBounds | generation.py:130-133 | The planet count drawn from the star rounds is 0..10, and at least 2 when there is a star. |
| Generation.GenerateRandom | generation.py:116-142 | A random system's planets are the random planets built from the draws, numbered from one; it has 1..5 distinct stars and `min(rounds, max_size)` planets (at most 10), named by number; gas giants are exactly the planets beyond the frost line; nothing is colonised and capacity holds. |
| Generation.TwinStarsCollapse | generation.py:119-127 | Two stars of temperature 4 collapse into one, the frost line is 2, and the third planet is a gas giant. |
| Generation.ManualPlanets | generation.py:159-164 | Planet `i` is the manual planet built from the `i`-th answers under the name `str(i + 1)`: it has the answered area and moon count; the planets carry standard names and satisfy capacity. |
| Generation.GenerateManual | generation.py:144-168 | From planet answers that may run longer, manual mode builds `planetNum - 1` planets (`range(1, planet_num)`), planet `i` being the answered planet `i` named `str(i + 1)`; none has area 0, and none is built when one is asked for. |
| Generation.OnePlanetAskedNoneBuilt | generation.py:157-159 | A concrete valid answer sequence that asks for one planet yields a system with no planets. |
| Generation.GenerateManualCorrected | generation.py:157-164 | The intended manual mode (`range(1, planet_num + 1)`) builds exactly `planetNum` planets from the answers, at least one, planet `i` being the answered planet `i` named `str(i + 1)`. |
| Generation.ManualDropsLastPlanet | generation.py:157-164 | On the same answers, the game's manual mode yields the intended planets without the last one. |
| Generation.GenerateSystem | generation.py:8-168 | Either mode gives a system named `Default` with standard numbered names, uncolonised and within capacity; manual planets are never gas giants. |
| Generation.RenameSystem | generation.py:108-114 | Every body is renamed to the new name plus its old last word; areas, colonies and moons are kept. |
| Generation.RenameKeepsIdentifiers | generation.py:108-114 | After renaming, every name still has a last word, and it is the old last word. |
| Generation.RenameTwice | generation.py:108-114 | Renaming twice is the same as renaming once to the second name. |
| Generation.BodyOrder | generation.py:180-183 | The insertion order lists exactly the bodies of the system, each once: planet by planet, each planet's moons in letter order before the planet itself. |
| Generation.Index | generation.py:178-185 | Every key of the index points to a scanned body carrying that key, and every scanned body's key is present. |
| Generation.IndexLastWins | generation.py:180-183 | A key maps to the last body in the scan that carries it. |
| Generation.CelestialDict | generation.py:171-185 | Every entry maps a lower-cased name to a body of the system with that name, and every body's name is a key. |
| Generation.CelestialDictKeys | generation.py:180-183 | A string is a key iff some body's lower-cased name equals it. |
| Generation.CelestialDictLastWins | generation.py:180-183 | When names clash, the body scanned last is kept. |
| Generation.IndexLatest | generation.py:180-183 | The body a key finds is the body looked up or one inserted after it. |
| Generation.CelestialDictLatest | generation.py:180-183 | The body a name finds is the named body or one inserted after it: a body of a later planet, a later moon of the same planet, or the moon's own planet. |
| Generation.PlanetOverOwnMoon | generation.py:180-183 | A planet sharing its lower-cased name with one of its own moons hides that moon: the name finds the planet or a body of a later planet, never the moon. |
| Generation.ShadowedPlanet | generation.py:180-183 | Of two planets with the same name, the index never finds the earlier one. |
| Generation.CelestialDictFindsEveryBody | generation.py:180-183 | With distinct names, every body is found under its own lower-cased name. |
| Generation.StandardKeyInjective | generation.py:79 | Two bodies with generated names (`str(n)` or `str(n)` plus a letter) share a lower-cased name only if they are the same body. |
| Generation.StandardNamesDistinct | generation.py:137-141 | Generated names are pairwise distinct after lower-casing. |
| Play.Locate | distant_skies.py:232-272 | The establishment search finds the first body in its scan order (each planet, then its moons) whose lower-cased name equals the lower-cased query, and finds nothing iff no body matches. |
| Play.LocateAgreesWithIndex | distant_skies.py:232-254 | The search finds a body iff the body index has the lower-cased query, and with distinct names both give the same body. |
| Play.SearchFindsShadowedMoon | distant_skies.py:232-254 | In any system where a moon and a later planet share a name and no body scanned before the moon has that name, the search finds the moon while the body index holds that later planet or a body inserted after it. |
| Play.SearchInShadowedMoon | distant_skies.py:232-254 | In the two-planet system `ShadowedMoon` (planet A with moon B, then planet B) the search for `b` finds the moon B. |
| Play.IndexKeepsLaterPlanet | generation.py:180-183 | In the system `ShadowedMoon` the body index keeps the planet B, so search and index disagree there. |
| Play.EstablishColony | distant_skies.py:223-272 | The result is "not found" iff no body matches; it succeeds iff the body has room (colonies below area); it is "gas giant" iff the body is a full planet of area 0; success appends one colony of the player, filed under the lower-cased name on the body and with the player, and records its name. |
| Play.EstablishKeepsCapacity | distant_skies.py:234-255 | Establishing a colony keeps every body within its area. |
| Play.GasGiantStaysEmpty | distant_skies.py:246-248 | No colony is ever established on an area-0 body. |
| Play.DefaultNameTracksCount | distant_skies.py:287-307 | Two default ship names for the same build are equal iff the players counted the same number of ships of that build. |
| Play.DefaultNameAdvances | distant_skies.py:287-320 | After a purchase under the default name into a new fleet, the next default name for that build differs from the one just used. |
| Play.DockNewFleet | distant_skies.py:317-320 | A new fleet is appended and filed under its name at the build site and with the player; nothing else changes. |
| Play.PurchaseShip | distant_skies.py:274-321 | The purchase fails for an unknown build, an unknown colony, or a requested merge, and for nothing else; on success one fleet named after the ship plus " Fleet" is docked at the chosen colony and owned by the player, holding the one new ship, which names that fleet as its parent. |
| Play.AddFleetCount | distant_skies.py:287-291 | Adding a fleet under a new name raises the player's per-build ship count by that fleet's ships of the build. |
| Play.PurchaseCountsShip | distant_skies.py:287-320 | After a purchase under a fresh fleet name, the count for the bought build is one higher and every other build's count is unchanged. |
| Play.ClashStillPurchases | distant_skies.py:297-305 | A custom name already in use is reported but still used: the purchase goes ahead. |
| Play.MoveFleet | distant_skies.py:344-353 | A fleet at a place goes into orbit from there to the destination; a fleet already in orbit is left alone; name, owner and ships never change. |
| Play.MoveTwice | distant_skies.py:349-353 | A second move order before arrival has no effect. |
| Play.MoveOwnedFleet | distant_skies.py:393-399 | A fleet name the player does not own changes nothing. Otherwise only the fleet filed under that name can change: if it was at a place it goes into orbit from there to the destination, else it stays. Every fleet keeps its name, owner and ships, and the system, players, colonies and used names are kept. |
| Play.PrefixNames | distant_skies.py:178-192 | Every body's name gets the system name and a space in front; areas, colonies and moons are kept. |
| Play.PrefixKeepsDistinctKeys | distant_skies.py:178-192 | Prefixing keeps lower-cased names pairwise distinct. |
| Play.PrefixedStandardWords | distant_skies.py:178-192 | With at most 26 moons per planet, the last word of every prefixed generated name is the generated name. |
| Play.PrefixedNamesHaveWords | distant_skies.py:178-192 | Every prefixed generated name has a last word, whatever the system name and the moon count. |
| Play.RenameAfterPrefix | generation.py:108-114 | Renaming a prefixed generated system by last words is the same as having prefixed it with the new name. |
| Play.RenameByTail | distant_skies.py:201-207 | The rename keeps only the last character of a planet name and the last two of a moon name after the new name. |
| Play.TailRenameAgreesBelowTen | distant_skies.py:201-207 | With at most nine planets, the tail rename agrees with the rename by last words. |
| Play.TailRenameLosesDigits | distant_skies.py:204-205 | With ten or more planets, planet 10 becomes "new 0" under the tail rename, but "new 10" under the rename by last words. |
| Play.TailRenameCollides | distant_skies.py:201-207 | With eleven or more planets the tail rename names planets 1 and 11 both "new 1", and the body index no longer finds planet 1. |
| Play.JoinPlayers | distant_skies.py:101-123 | 2 to 8 players, as many as entered, owning nothing, each named as entered or "Player n". |
| Play.DefaultNamesDistinct | distant_skies.py:117-121 | Default player names are pairwise distinct, and each one's last word is its number. |
| Session.SetupSystem | distant_skies.py:407-413 | The system in play has the generated system's stars and layout (areas, moon counts, no colonies), satisfies capacity, and is named as chosen; without a rename every body is named the system name, a space, and its generated name. |
| Session.RenameAtSetup | distant_skies.py:408-413 | Renaming at setup gives the same system as choosing the new name at once (at most 26 moons per planet). |
| Session.SetupIndexesEveryBody | distant_skies.py:420 | At the start of play, body names are distinct and the body index finds every body under its own name. |
| Session.Setup | distant_skies.py:403-420 | The initial world satisfies the invariant: capacity, and every colony, fleet and ownership link points into the arenas consistently. |
| Session.EstablishAddsColony | distant_skies.py:239-242 | A successful establishment adds exactly one colony, filed on the found body and with the player. |
| Session.EstablishKeepsValid | distant_skies.py:223-272 | Establishing a colony preserves the invariant. |
| Session.PurchaseAddsFleet | distant_skies.py:317-320 | A successful purchase adds exactly one fleet, docked at the site and owned by the player. |
| Session.PurchaseKeepsValid | distant_skies.py:274-321 | Purchasing a ship preserves the invariant. |
| Session.MoveKeepsValid | distant_skies.py:344-353 | Moving a fleet preserves the invariant. |
| Session.Step | distant_skies.py:357-399 | One turn operation keeps the invariant, the player count, the system name, the stars, and every body's name and area. |
| Session.Run | distant_skies.py:437-447 | Any sequence of turn operations keeps the invariant and the bodies. |
| Session.CapacityUnderAnyRun | distant_skies.py:234-255 | From setup, whatever the players do, no body exceeds its area and an area-0 body holds no colony. |

## Left out

- Console output, `slow_print`, the star-type listing, `list_colonies`,
  `view_ships` and all messages: they only print.
- Saving and loading games, and the `Game` class: these are file I/O. `World`
  holds what `Game` holds.
- Random draws are parameters. `rand.choices` weights and the distribution of
  `exp(3u - 1)` are not modelled, only their supports (1..5 stars, 0..7 moons).
- `random_name` and `random_line` read a file of names. The colony name is a
  parameter of `EstablishColony` instead.
- The frost line is a float. The model keeps only its integer floor, because
  planet indices are compared with it; the floor is bracketed by
  `FrostBracket`.
- `int()` parsing in `num_choice`: each line is given already parsed, as
  `Option<int>`.
- `list_choice`'s `help` listing and its nested "View options?" prompt. They
  only print, but the nested prompt consumes input lines that the model does
  not thread through.
- `lower()` handles ASCII capitals only; Unicode case mapping is not modelled.
- The system name is taken as a parameter. The `lower().capitalize()` applied
  to the entered name is not modelled.
- The command dispatcher `normal` and the turn loop: the parsing of command
  words and `end` and `stop`. Their effects are the `TurnOp` operations.
- `Play.MoveOwnedFleet`: the fleet name is a parameter, so the model moves
  any fleet the player owns. In the game the name is `words[2]`, one word of
  the command's `split()` (distant_skies.py:359, 396). Every fleet is filed
  under its ship's name plus `" Fleet"` (line 317), which holds a space, so
  `fleet in fleets` is never true and the game never moves a fleet. The
  destination is any `Place`; in the game it is a colony name chosen by
  `list_choice`, passed on as a string.
- The opening round, where each player repeats `establish_colony` until it
  succeeds. It is a sequence of `Establish` operations, so `Session.Run`
  covers it.
- Ship fuel, drive charge, attack and production amounts are not read by the
  modelled operations.
- The redundant player-count re-check in `join_players` (lines 108-111) is
  dead code, because `num_choice` already enforces 2..8.
- Merging a new ship into a docked fleet. The game calls `append` on a
  dictionary entry holding a `Fleet`, which has no such method. The model
  reports `MergeUnsupported` instead.
- `Play.PurchaseShip`: an unknown build is `UnknownBuild`, with the world
  unchanged. In the game a dictionary given to `list_choice` accepts any
  line, so the lookup at line 281 raises `KeyError`. The `finally` block then
  runs with `selection` equal to `''`. `selection.name` is evaluated only if
  the player owns a ship (line 290) or takes the default name (line 307);
  either way the game fails there. With no ships and a custom name, lines
  308-320 build a ship whose build is `''`, dock a new fleet for it and
  record it with the player before the function returns. The model does
  not produce that ship. An unknown colony is `UnknownColony`, where the
  game raises `KeyError`.
- `Play.ShipsOfBuild`: counts ships over the distinct fleets the player owns,
  while the game sums over dictionary entries. The two agree whenever every
  fleet is filed under its own name, which `Session.Valid` guarantees.
- `Play.PurchaseCountsShip`: the count is stated only when the new fleet's name
  is not already in use by the player. Otherwise the game overwrites the old
  entry and the old fleet's ships leave the count.
- `Generation.ManualMoons`: manual moon counts are limited to fewer than
  0xD800 - 97. Beyond that `chr(97 + k)` is a surrogate code point, which a
  Dafny `char` cannot hold.
- `Play.RenameAfterPrefix`, `Play.PrefixedStandardWords`,
  `Play.TailRenameAgreesBelowTen`, `Session.RenameAtSetup`,
  `Session.SetupIndexesEveryBody` (with a rename): these require at most 26
  moons per planet. Moon letter 36 is `chr(133)`, which `split()` treats as
  whitespace, so for more moons a name's last word is no longer its
  identifier. Random systems have at most 9 moons per planet.

- `Session.SetupSystem`: the optional rename is `Generation.RenameSystem`,
  which keeps each body's whole last word. The game calls the tail rename
  of distant_skies.py:201-207 (`Play.RenameByTail`) here; the two agree up
  to nine planets (`Play.TailRenameAgreesBelowTen`). With ten or more
  planets the game's names lose digits (see Findings), and the model does
  not reproduce that. Its contract gives body names only when there is no
  rename. Names after a rename are stated by `Session.RenameAtSetup`, for
  at most 26 moons per planet.
- `Session.RenameAtSetup`: states the rename with `Generation.RenameSystem`,
  not the game's tail rename. For the game's rename it holds only up to nine
  planets (`Play.TailRenameAgreesBelowTen`); with eleven planets it fails
  (`Play.TailRenameCollides`).
- `Session.SetupIndexesEveryBody`: with a rename, distinct names rely on
  `Generation.RenameSystem`. After the game's tail rename, eleven planets
  give two planets the same name, and the index loses planet 1
  (`Play.TailRenameCollides`).

- `Generation.StandardKeyInjective`, `Generation.StandardNamesDistinct`,
  `Session.SetupIndexesEveryBody`: distinct keys are proved under the
  model's ASCII `lower()`. Manual mode accepts any moon count
  (generation.py:87), and moon `k` is named with `chr(97 + k)`
  (generation.py:101). Python's `lower()` maps moon letter 95, `'À'`
  (U+00C0), to `'à'` (U+00E0), which is moon letter 127. So on a planet
  with 128 or more moons two moons share a `celestial_dict` key, and the
  game's index loses the earlier one. For the game these members promise
  distinct keys only up to 127 moons per planet. Random systems have at
  most 9 moons per planet.

## Findings

| source | as written | input that shows it | evidently intended | confidence | as-written member | corrected member |
|---|---|---|---|---|---|---|
| distant_skies.py:204-207 | The rename keeps `planet.name[-1]` and `moon.name[-2:]` after the new name | A random system with 10 planets (`GenerateRandom` allows up to 10): planet "X 10" becomes "New 0"; with 11 planets (manual mode, answering 12), planets 1 and 11 both become "New 1" | Keep the whole identifier, as `split()[-1]` does at generation.py:111-113 | not executed | Play.RenameByTail, Play.TailRenameLosesDigits, Play.TailRenameCollides | Generation.RenameSystem, Play.RenameAfterPrefix |

=== FILE: entities.dfy ===
/** The game's entities: stars, planets, moons, colonies, ship builds, ships,
    fleets, fleet locations and players, plus the fixed build catalogue.

    The game shares mutable objects between collections: a colony sits in
    its body's `colonies` and in its owner's `owned_colonies`, and a fleet
    sits in its colony's `docked` and in its owner's `owned_fleets`. Here
    every colony and fleet lives once in an arena of the `World`, and those
    maps hold arena positions, so "the same object under both keys" is "the
    same position under both keys". Colony and fleet owners are positions
    in the player list. */
module Entities {

  /** Production of every colony per turn. */
  const ProductionPerTurn: int := 25

  datatype Star = Star(temp: int)

  datatype Moon = Moon(name: string, area: int, colonies: map<string, nat>)

  /** `area == 0` marks a randomly generated gas giant. */
  datatype Planet = Planet(name: string, area: int, moons: seq<Moon>, colonies: map<string, nat>)

  datatype System = System(stars: set<Star>, planets: seq<Planet>, name: string)

  datatype Colony = Colony(owner: nat, name: string, docked: map<string, nat>, prodPerTurn: int)

  /** A ship template: its name and the cost of each of its parts. */
  datatype Build = Build(name: string, parts: map<string, int>)

  datatype Ship = Ship(name: string, build: Build, parentFleet: string)

  /** Where a fleet can sit: a planet, a moon (by planet and moon position) or a colony. */
  datatype Place = PlanetSite(planet: nat) | MoonSite(planet: nat, moon: nat) | ColonySite(colony: nat)

  /** A fleet is either at a place or in orbit between two places. */
  datatype Location = At(place: Place) | Orbit(origin: Place, destination: Place)

  datatype Fleet = Fleet(name: string, owner: nat, location: Location, members: seq<Ship>)

  datatype Player = Player(name: string, netWorth: int, ownedColonies: map<string, nat>, ownedFleets: map<string, nat>)

  /** The game state: the system, the players in turn order, the colony and
      fleet arenas and the set of colony names handed out so far. */
  datatype World = World(system: System, players: seq<Player>, colonies: seq<Colony>, fleets: seq<Fleet>, usedNames: set<string>)

  /** A new player with nothing owned yet. */
  function NewPlayer(name: string): Player {
    Player(name, 0, map[], map[])
  }

  // ------------------------------------------------------------- body refs

  /** A planet or moon of a system, by position. */
  datatype BodyRef = PlanetRef(planet: nat) | MoonRef(planet: nat, moon: nat)

  predicate ValidRef(planets: seq<Planet>, r: BodyRef) {
    match r
    case PlanetRef(i) => i < |planets|
    case MoonRef(i, j) => i < |planets| && j < |planets[i].moons|
  }

  function BodyName(planets: seq<Planet>, r: BodyRef): string
    requires ValidRef(planets, r)
  {
    match r
    case PlanetRef(i) => planets[i].name
    case MoonRef(i, j) => planets[i].moons[j].name
  }

  function BodyArea(planets: seq<Planet>, r: BodyRef): int
    requires ValidRef(planets, r)
  {
    match r
    case PlanetRef(i) => planets[i].area
    case MoonRef(i, j) => planets[i].moons[j].area
  }

  function BodyColonies(planets: seq<Planet>, r: BodyRef): map<string, nat>
    requires ValidRef(planets, r)
  {
    match r
    case PlanetRef(i) => planets[i].colonies
    case MoonRef(i, j) => planets[i].moons[j].colonies
  }

  /** The same planets with the colony map of one body replaced; every other
      body, and every name, area and moon list, is left as it was. */
  function WithColonies(planets: seq<Planet>, r: BodyRef, cols: map<string, nat>): (ps: seq<Planet>)
    requires ValidRef(planets, r)
    ensures |ps| == |planets|
    ensures forall i :: 0 <= i < |ps| ==> |ps[i].moons| == |planets[i].moons|
    ensures forall b :: ValidRef(ps, b) <==> ValidRef(planets, b)
    ensures forall b :: ValidRef(planets, b) ==>
      && BodyName(ps, b) == BodyName(planets, b)
      && BodyArea(ps, b) == BodyArea(planets, b)
      && BodyColonies(ps, b) == (if b == r then cols else BodyColonies(planets, b))
  {
    match r
    case PlanetRef(i) => planets[i := planets[i].(colonies := cols)]
    case MoonRef(i, j) =>
      var moons := planets[i].moons;
      planets[i := planets[i].(moons := moons[j := moons[j].(colonies := cols)])]
  }

  /** Every planet and moon holds at most as many colonies as its area. */
  ghost predicate WithinCapacity(planets: seq<Planet>) {
    forall b :: ValidRef(planets, b) ==> |BodyColonies(planets, b)| <= BodyArea(planets, b)
  }

  /** No body holds a colony, as after generation. */
  ghost predicate Uncolonised(planets: seq<Planet>) {
    forall b :: ValidRef(planets, b) ==> BodyColonies(planets, b) == map[]
  }

  /** Freshly generated bodies satisfy the capacity rule when their areas are
      not negative, which every generated area is. */
  lemma {:induction false} UncolonisedWithinCapacity(planets: seq<Planet>)
    requires Uncolonised(planets)
    requires forall b :: ValidRef(planets, b) ==> BodyArea(planets, b) >= 0
    ensures WithinCapacity(planets)
  {
    forall b | ValidRef(planets, b)
      ensures |BodyColonies(planets, b)| <= BodyArea(planets, b)
    {
      assert BodyColonies(planets, b) == map[];
    }
  }

  /** Two planet lists that differ at most in names: same areas, colony
      maps and moon counts, body by body. */
  ghost predicate SameLayout(ps: seq<Planet>, qs: seq<Planet>) {
    && |ps| == |qs|
    && forall i :: 0 <= i < |ps| ==>
      && ps[i].area == qs[i].area
      && ps[i].colonies == qs[i].colonies
      && |ps[i].moons| == |qs[i].moons|
      && forall k :: 0 <= k < |ps[i].moons| ==>
        ps[i].moons[k].area == qs[i].moons[k].area && ps[i].moons[k].colonies == qs[i].moons[k].colonies
  }

  /** Renaming bodies cannot break the capacity rule, nor colonise anything. */
  lemma {:induction false} SameLayoutCapacity(ps: seq<Planet>, qs: seq<Planet>)
    requires SameLayout(ps, qs)
    ensures forall b :: ValidRef(ps, b) <==> ValidRef(qs, b)
    ensures WithinCapacity(ps) <==> WithinCapacity(qs)
    ensures Uncolonised(ps) <==> Uncolonised(qs)
  {
    assert forall b :: ValidRef(ps, b) ==>
      BodyArea(ps, b) == BodyArea(qs, b) && BodyColonies(ps, b) == BodyColonies(qs, b);
  }

  // ---------------------------------------------------------- build catalog

  const Dreadnaught: Build := Build("dreadnaught", map["hyperdrive" := 200, "life support" := 100, "targeting" := 100])
  const ColonyShip: Build := Build("colony ship", map["shield generator" := 500])
  const CapitalShip: Build := Build("capital ship", map["hyperdrive" := 300, "life support" := 200, "shield generator" := 100])
  const Fighter: Build := Build("fighter", map["life support" := 50])

  /** The four builds a player can purchase, keyed by their names. */
  const Catalog: map<string, Build> := map[
    "dreadnaught" := Dreadnaught,
    "colony ship" := ColonyShip,
    "capital ship" := CapitalShip,
    "fighter" := Fighter
  ]

  /** The catalogue knows exactly four builds and files each under its own name. */
  lemma CatalogKeyedByName()
    ensures Catalog.Keys == {"dreadnaught", "colony ship", "capital ship", "fighter"}
    ensures forall k :: k in Catalog ==> Catalog[k].name == k
  {
  }
}

=== FILE: generation.dfy ===
/** System generation and the body index of `generation.py`.

    Every random draw and every console answer is a parameter. A random
    draw is constrained to the support of the call that makes it
    (`randint(a, b)` gives a value in `[a, b]`); a console answer is
    constrained to what `num_choice` accepts for that prompt. The frost
    line, a sum of square roots, is passed as its floor together with the
    integer bracket that floor must lie in. */
module Generation {
  import opened Wrappers
  import opened Text
  import opened Entities
  import Helpers

  /** Planet limit when the player imposes no maximum size. */
  const DefaultMaxSize: nat := 99
  /** Size handed to moon generation for a random gas giant. */
  const GasGiantMoonSize: int := 8
  /** Name given to every freshly generated system. */
  const DefaultSystemName: string := "Default"
  /** Moon offsets `k` for which `chr(97 + k)` lies below the surrogate block. */
  const MaxMoonLetters: nat := 0xD800 - 97

  // ------------------------------------------------------------------ stars

  /** The stars made from the drawn temperatures. Stars are compared by
      temperature and collected in a set, so equal temperatures collapse. */
  function StarSet(temps: seq<int>): set<Star> {
    set t | t in temps :: Star(t)
  }

  lemma {:induction false} StarSetNoLarger(temps: seq<int>)
    ensures |StarSet(temps)| <= |temps|
    decreases |temps|
  {
    if |temps| > 0 {
      var init := temps[..|temps| - 1];
      StarSetNoLarger(init);
      assert StarSet(temps) == StarSet(init) + {Star(temps[|temps| - 1])} by {
        assert forall t :: t in temps <==> t in init || t == temps[|temps| - 1] by {
          assert temps == init + [temps[|temps| - 1]];
        }
      }
    }
  }

  /** At most seven distinct stars, one per temperature class, and never
      more stars than draws. */
  lemma StarSetBounds(temps: seq<int>)
    requires forall k :: 0 <= k < |temps| ==> 1 <= temps[k] <= 7
    ensures |StarSet(temps)| <= |temps|
    ensures |StarSet(temps)| <= 7
  {
    StarSetNoLarger(temps);
    var all := {Star(1), Star(2), Star(3), Star(4), Star(5), Star(6), Star(7)};
    assert StarSet(temps) <= all;
    assert |all| == 7;
    SubsetCardinality(StarSet(temps), all);
  }

  lemma {:induction false} SubsetCardinality<T>(a: set<T>, b: set<T>)
    requires a <= b
    ensures |a| <= |b|
  {
    assert b == a + (b - a);
  }

  // -------------------------------------------------------------- frost line

  /** Floor of the square root of a star temperature. */
  function FloorSqrt(t: int): (r: int)
    requires 1 <= t <= 7
    ensures r * r <= t < (r + 1) * (r + 1)
  {
    if t < 4 then 1 else 2
  }

  /** Ceiling of the square root of a star temperature. */
  function CeilSqrt(t: int): (r: int)
    requires 1 <= t <= 7
    ensures (r - 1) * (r - 1) < t <= r * r
  {
    if t == 1 then 1 else if t <= 4 then 2 else 3
  }

  /** Sum of the rounded square roots of the temperatures `1..upTo` present among the stars. */
  function RootSum(stars: set<Star>, upTo: nat, roundUp: bool): nat
    requires upTo <= 7
  {
    if upTo == 0 then 0
    else
      RootSum(stars, upTo - 1, roundUp)
      + (if Star(upTo) in stars then (if roundUp then CeilSqrt(upTo) else FloorSqrt(upTo)) else 0)
  }

  /** `f` may be the floor of the frost line, the sum of the square roots of
      the star temperatures: that sum lies between the sums of the rounded
      down and rounded up roots, and equals the upper one only when every
      root is exact. */
  predicate FrostBracket(stars: set<Star>, f: nat) {
    var lo := RootSum(stars, 7, false);
    var hi := RootSum(stars, 7, true);
    f == lo || lo <= f < hi
  }

  // ------------------------------------------------------------------ moons

  /** The random moon count after its two adjustments: two fewer for a
      small body that drew more than four, one more for a body above five. */
  function AdjustedMoonCount(drawn: int, size: int): int {
    var n := if size < 8 && drawn > 4 then drawn - 2 else drawn;
    if size > 5 then n + 1 else n
  }

  /** The size that bounds random moon areas: halved for a body above five. */
  function MoonAreaBound(size: int): int {
    if size > 5 then size / 2 else size
  }

  /** Moon `k` of a planet is named after it with the `k`-th lower-case letter appended. */
  function MoonName(planetName: string, k: nat): string
    requires k < MaxMoonLetters
  {
    planetName + [(97 + k) as char]
  }

  /** The draws behind a planet's moons: the moon count (drawn or answered)
      and one area per moon. */
  datatype MoonDraw = MoonDraw(count: int, areas: seq<int>)

  /** `floor(exp(3u - 1))` lies in `0..7`; the area stream holds at least
      the areas the moon loop draws, each from `randint(1, bound - 1)`. */
  predicate ValidRandomMoonDraw(size: int, d: MoonDraw) {
    && 0 <= d.count <= 7
    && |d.areas| > AdjustedMoonCount(d.count, size)
    && forall k :: 0 <= k <= AdjustedMoonCount(d.count, size) ==> 1 <= d.areas[k] <= MoonAreaBound(size) - 1
  }

  /** The moon count is answered with a bound of zero below; the answer
      stream holds at least the areas the moon loop asks for, each accepted
      by `num_choice(.., 1, size - 1)`. */
  predicate ValidManualMoonDraw(size: int, d: MoonDraw) {
    && Helpers.NumAccepts(d.count, 0, None)
    && d.count < MaxMoonLetters
    && |d.areas| >= d.count
    && forall k :: 0 <= k < d.count ==> Helpers.NumAccepts(d.areas[k], 1, Some(size - 1))
  }

  function NamedMoons(planetName: string, areas: seq<int>): (moons: seq<Moon>)
    requires |areas| <= MaxMoonLetters
    ensures |moons| == |areas|
    ensures forall k :: 0 <= k < |moons| ==> moons[k] == Moon(MoonName(planetName, k), areas[k], map[])
  {
    seq(|areas|, k requires 0 <= k < |areas| => Moon(MoonName(planetName, k), areas[k], map[]))
  }

  /** Random moons of a body of the given size: one more moon than the
      adjusted count (the loop bound is inclusive), each with an area below
      the possibly halved size. */
  function RandomMoons(planetName: string, size: int, d: MoonDraw): (moons: seq<Moon>)
    requires ValidRandomMoonDraw(size, d)
    ensures |moons| == AdjustedMoonCount(d.count, size) + 1
    ensures forall k :: 0 <= k < |moons| ==> moons[k].name == MoonName(planetName, k)
    ensures forall k :: 0 <= k < |moons| ==> 1 <= moons[k].area < MoonAreaBound(size)
    ensures forall k :: 0 <= k < |moons| ==> moons[k].area == d.areas[k] && moons[k].colonies == map[]
  {
    NamedMoons(planetName, d.areas[..AdjustedMoonCount(d.count, size) + 1])
  }

  /** Answered moons: exactly the answered count (the loop bound is
      exclusive), each smaller than the planet's size. */
  function ManualMoons(planetName: string, size: int, d: MoonDraw): (moons: seq<Moon>)
    requires ValidManualMoonDraw(size, d)
    ensures |moons| == d.count
    ensures forall k :: 0 <= k < |moons| ==> moons[k].name == MoonName(planetName, k)
    ensures forall k :: 0 <= k < |moons| ==> 1 <= moons[k].area < size
    ensures forall k :: 0 <= k < |moons| ==> moons[k].area == d.areas[k] && moons[k].colonies == map[]
  {
    NamedMoons(planetName, d.areas[..d.count])
  }

  /** For the sizes random generation uses (3 to 6 for a terrestrial planet,
      8 for a gas giant) the area range `[1, bound - 1]` is never empty, and
      a body gets between one and nine moons, a gas giant at least two. */
  lemma RandomMoonShape(size: int, drawn: int)
    requires 3 <= size <= 6 || size == GasGiantMoonSize
    requires 0 <= drawn <= 7
    ensures MoonAreaBound(size) >= 3
    ensures 0 <= AdjustedMoonCount(drawn, size) <= 8
    ensures size <= 5 ==> AdjustedMoonCount(drawn, size) <= 5
    ensures size <= 6 ==> AdjustedMoonCount(drawn, size) <= 6
    ensures size == GasGiantMoonSize ==> AdjustedMoonCount(drawn, size) >= 1
  {
  }

  // ---------------------------------------------------------------- planets

  /** The draws behind one planet: its area (unused by a random gas giant)
      and its moons. */
  datatype PlanetDraw = PlanetDraw(area: int, moons: MoonDraw)

  /** A random terrestrial planet draws its area from `randint(3, 6)`; a
      random gas giant draws only its moons, with size 8. */
  predicate ValidRandomPlanetDraw(terrestrial: bool, d: PlanetDraw) {
    if terrestrial then 3 <= d.area <= 6 && ValidRandomMoonDraw(d.area, d.moons)
    else ValidRandomMoonDraw(GasGiantMoonSize, d.moons)
  }

  /** Answered planets take an area from `num_choice(.., 3, 10)`. */
  predicate ValidManualPlanetDraw(d: PlanetDraw) {
    Helpers.NumAccepts(d.area, 3, Some(10)) && ValidManualMoonDraw(d.area, d.moons)
  }

  function RandomTerrestrial(name: string, d: PlanetDraw): (p: Planet)
    requires ValidRandomPlanetDraw(true, d)
    ensures p.name == name && p.area == d.area && p.colonies == map[]
    ensures 3 <= p.area <= 6
    ensures p.moons == RandomMoons(name, d.area, d.moons)
    ensures forall k :: 0 <= k < |p.moons| ==> 1 <= p.moons[k].area < p.area
  {
    Planet(name, d.area, RandomMoons(name, d.area, d.moons), map[])
  }

  function RandomGasGiant(name: string, d: PlanetDraw): (p: Planet)
    requires ValidRandomPlanetDraw(false, d)
    ensures p.name == name && p.area == 0 && p.colonies == map[]
    ensures p.moons == RandomMoons(name, GasGiantMoonSize, d.moons)
    ensures 2 <= |p.moons|
    ensures forall k :: 0 <= k < |p.moons| ==> 1 <= p.moons[k].area <= 3
  {
    Planet(name, 0, RandomMoons(name, GasGiantMoonSize, d.moons), map[])
  }

  /** An answered planet, whichever side of the frost line it falls on: both
      branches ask for an area in `3..10`, so a manual gas giant is never of
      area zero. */
  function ManualPlanet(name: string, d: PlanetDraw): (p: Planet)
    requires ValidManualPlanetDraw(d)
    ensures p.name == name && p.area == d.area && p.colonies == map[]
    ensures 3 <= p.area <= 10
    ensures p.moons == ManualMoons(name, d.area, d.moons)
    ensures forall k :: 0 <= k < |p.moons| ==> 1 <= p.moons[k].area < p.area
  {
    Planet(name, d.area, ManualMoons(name, d.area, d.moons), map[])
  }

  /** Planet number `index` (counted from one) is terrestrial exactly when
      it does not exceed the frost line. */
  function RandomPlanet(index: nat, frostFloor: nat, d: PlanetDraw): (p: Planet)
    requires ValidRandomPlanetDraw(index <= frostFloor, d)
    ensures p.name == NatToString(index)
    ensures p.area == 0 <==> index > frostFloor
    ensures index <= frostFloor ==> 3 <= p.area <= 6 && p.area == d.area
    ensures p.area >= 0 && p.colonies == map[]
    ensures |p.moons| <= 9
    ensures forall k :: 0 <= k < |p.moons| ==> p.moons[k].name == MoonName(NatToString(index), k)
    ensures forall k :: 0 <= k < |p.moons| ==> p.moons[k].area >= 1 && p.moons[k].colonies == map[]
  {
    if index <= frostFloor then
      RandomMoonShape(d.area, d.moons.count);
      RandomTerrestrial(NatToString(index), d)
    else
      RandomMoonShape(GasGiantMoonSize, d.moons.count);
      RandomGasGiant(NatToString(index), d)
  }

  /** Planets are named by their number and their moons by the planet's
      number and a letter. */
  ghost predicate StandardNames(planets: seq<Planet>) {
    forall i :: 0 <= i < |planets| ==>
      && planets[i].name == NatToString(i + 1)
      && |planets[i].moons| <= MaxMoonLetters
      && forall k :: 0 <= k < |planets[i].moons| ==> planets[i].moons[k].name == MoonName(NatToString(i + 1), k)
  }

  // --------------------------------------------------------- random systems

  /** The planets contributed by the stars: star `i` (from one) adds its
      draw from `randint(4, 10)` divided by `2i`, rounded down. */
  function RoundSum(rounds: seq<int>): int {
    if |rounds| == 0 then 0
    else RoundSum(rounds[..|rounds| - 1]) + rounds[|rounds| - 1] / (2 * |rounds|)
  }

  function PlanetTotal(rounds: seq<int>, maxSize: nat): int {
    var n := RoundSum(rounds);
    if n > maxSize then maxSize else n
  }

  /** One to five stars contribute between two and ten planets. */
  lemma {:induction false} RoundSumBounds(rounds: seq<int>)
    requires |rounds| <= 5
    requires forall k :: 0 <= k < |rounds| ==> 4 <= rounds[k] <= 10
    ensures 0 <= RoundSum(rounds) <= [0, 5, 7, 8, 9, 10][|rounds|]
    ensures RoundSum(rounds) <= 10
    ensures |rounds| >= 1 ==> RoundSum(rounds) >= 2
    decreases |rounds|
  {
    var n := |rounds|;
    if n > 0 {
      var init := rounds[..n - 1];
      RoundSumBounds(init);
      var x := rounds[n - 1];
      assert RoundSum(rounds) == RoundSum(init) + x / (2 * n);
      if n == 1 {
        assert 2 <= x / 2 <= 5;
      } else if n == 2 {
        assert 1 <= x / 4 <= 2;
      } else if n == 3 {
        assert 0 <= x / 6 <= 1;
      } else if n == 4 {
        assert 0 <= x / 8 <= 1;
      } else {
        assert 0 <= x / 10 <= 1;
      }
    }
    assert [0, 5, 7, 8, 9, 10][n] <= 10 by {
      assert n == 0 || n == 1 || n == 2 || n == 3 || n == 4 || n == 5;
    }
  }

  /** Every draw behind a random system: star temperatures, one planet
      round per distinct star, the floor of the frost line, one draw per
      planet. */
  datatype RandomDraws = RandomDraws(temps: seq<int>, rounds: seq<int>, frostFloor: nat, planets: seq<PlanetDraw>)

  /** The star count comes from a weighted choice over `1..5`, each
      temperature from `randint(1, 7)`; the planet rounds run over the
      distinct stars only. */
  ghost predicate ValidRandomDraws(maxSize: nat, d: RandomDraws) {
    && 1 <= |d.temps| <= 5
    && (forall k :: 0 <= k < |d.temps| ==> 1 <= d.temps[k] <= 7)
    && |d.rounds| == |StarSet(d.temps)|
    && (forall k :: 0 <= k < |d.rounds| ==> 4 <= d.rounds[k] <= 10)
    && FrostBracket(StarSet(d.temps), d.frostFloor)
    && |d.planets| == PlanetTotal(d.rounds, maxSize)
    && forall i :: 0 <= i < |d.planets| ==> ValidRandomPlanetDraw(i + 1 <= d.frostFloor, d.planets[i])
  }

  /** The random planets, numbered from one. */
  function RandomPlanets(frostFloor: nat, draws: seq<PlanetDraw>): (planets: seq<Planet>)
    requires forall i :: 0 <= i < |draws| ==> ValidRandomPlanetDraw(i + 1 <= frostFloor, draws[i])
    ensures |planets| == |draws|
    ensures forall i :: 0 <= i < |draws| ==> planets[i] == RandomPlanet(i + 1, frostFloor, draws[i])
  {
    seq(|draws|, i requires 0 <= i < |draws| => RandomPlanet(i + 1, frostFloor, draws[i]))
  }

  /** Bodies whose areas are not negative and that hold no colony. */
  lemma {:induction false} FreshBodies(planets: seq<Planet>)
    requires forall i :: 0 <= i < |planets| ==> planets[i].area >= 0 && planets[i].colonies == map[]
    requires forall i, k :: 0 <= i < |planets| && 0 <= k < |planets[i].moons| ==>
      planets[i].moons[k].area >= 0 && planets[i].moons[k].colonies == map[]
    ensures Uncolonised(planets) && WithinCapacity(planets)
  {
    assert forall b :: ValidRef(planets, b) ==> BodyArea(planets, b) >= 0 && BodyColonies(planets, b) == map[];
    UncolonisedWithinCapacity(planets);
  }

  /** Random mode: planets numbered from one up to the planet total, those
      up to the frost line terrestrial with an area in `3..6`, the rest gas
      giants of area zero. */
  function GenerateRandom(maxSize: nat, d: RandomDraws): (sys: System)
    requires ValidRandomDraws(maxSize, d)
    ensures sys.name == DefaultSystemName && sys.stars == StarSet(d.temps)
    ensures 1 <= |sys.stars| <= 5
    ensures sys.planets == RandomPlanets(d.frostFloor, d.planets)
    ensures |sys.planets| == PlanetTotal(d.rounds, maxSize) <= 10
    ensures maxSize >= 2 ==> |sys.planets| >= 2
    ensures StandardNames(sys.planets)
    ensures forall i :: 0 <= i < |sys.planets| ==> (sys.planets[i].area == 0 <==> i + 1 > d.frostFloor)
    ensures forall i :: 0 <= i < |sys.planets| && i + 1 <= d.frostFloor ==> 3 <= sys.planets[i].area <= 6
    ensures forall i :: 0 <= i < |sys.planets| ==> |sys.planets[i].moons| <= 9
    ensures Uncolonised(sys.planets) && WithinCapacity(sys.planets)
  {
    StarSetBounds(d.temps);
    assert Star(d.temps[0]) in StarSet(d.temps);
    RoundSumBounds(d.rounds);
    var planets := RandomPlanets(d.frostFloor, d.planets);
    FreshBodies(planets);
    forall i | 0 <= i < |planets|
      ensures |planets[i].moons| <= MaxMoonLetters
      ensures forall k :: 0 <= k < |planets[i].moons| ==> planets[i].moons[k].name == MoonName(NatToString(i + 1), k)
    {
      assert planets[i] == RandomPlanet(i + 1, d.frostFloor, d.planets[i]);
    }
    System(StarSet(d.temps), planets, DefaultSystemName)
  }

  lemma {:induction false} RootSumOfOne(t: int, upTo: nat, roundUp: bool)
    requires 1 <= t <= 7 && upTo <= 7
    ensures RootSum({Star(t)}, upTo, roundUp) ==
      if t <= upTo then (if roundUp then CeilSqrt(t) else FloorSqrt(t)) else 0
  {
    if upTo > 0 {
      RootSumOfOne(t, upTo - 1, roundUp);
    }
  }

  /** Two stars of equal temperature count once: with two stars of
      temperature 4 the frost line is 2, so the third planet is already a
      gas giant. */
  lemma TwinStarsCollapse(maxSize: nat, d: RandomDraws)
    requires ValidRandomDraws(maxSize, d)
    requires d.temps == [4, 4]
    ensures |GenerateRandom(maxSize, d).stars| == 1
    ensures d.frostFloor == 2
    ensures |d.planets| >= 3 ==> GenerateRandom(maxSize, d).planets[2].area == 0
  {
    assert StarSet(d.temps) == {Star(4)};
    RootSumOfOne(4, 7, false);
    RootSumOfOne(4, 7, true);
  }

  // --------------------------------------------------------- manual systems

  /** Every console answer behind a manual system. */
  datatype ManualAnswers = ManualAnswers(starCount: int, temps: seq<int>, frostFloor: nat, planetNum: int, planets: seq<PlanetDraw>)

  /** The star count is answered with a lower bound of zero, each
      temperature in `1..7`, the planet number with a lower bound of one. */
  ghost predicate ValidManualStars(a: ManualAnswers) {
    && Helpers.NumAccepts(a.starCount, 0, None)
    && |a.temps| == a.starCount
    && (forall k :: 0 <= k < |a.temps| ==> Helpers.NumAccepts(a.temps[k], 1, Some(7)))
    && FrostBracket(StarSet(a.temps), a.frostFloor)
    && Helpers.NumAccepts(a.planetNum, 1, None)
    && forall i :: 0 <= i < |a.planets| && i < a.planetNum ==> ValidManualPlanetDraw(a.planets[i])
  }

  function ManualPlanets(draws: seq<PlanetDraw>): (planets: seq<Planet>)
    requires forall i :: 0 <= i < |draws| ==> ValidManualPlanetDraw(draws[i])
    ensures |planets| == |draws|
    ensures StandardNames(planets)
    ensures forall i :: 0 <= i < |planets| ==> planets[i] == ManualPlanet(NatToString(i + 1), draws[i])
    ensures forall i :: 0 <= i < |planets| ==> planets[i].area == draws[i].area && 3 <= planets[i].area <= 10
    ensures forall i :: 0 <= i < |planets| ==> |planets[i].moons| == draws[i].moons.count
    ensures Uncolonised(planets) && WithinCapacity(planets)
  {
    var planets := seq(|draws|, i requires 0 <= i < |draws| => ManualPlanet(NatToString(i + 1), draws[i]));
    ManualPlanetsFresh(draws, planets);
    planets
  }

  /** Answered planets numbered from one carry standard names, hold no
      colony and satisfy capacity. */
  lemma {:induction false} ManualPlanetsFresh(draws: seq<PlanetDraw>, planets: seq<Planet>)
    requires forall i :: 0 <= i < |draws| ==> ValidManualPlanetDraw(draws[i])
    requires |planets| == |draws|
    requires forall i :: 0 <= i < |planets| ==> planets[i] == ManualPlanet(NatToString(i + 1), draws[i])
    ensures StandardNames(planets)
    ensures Uncolonised(planets) && WithinCapacity(planets)
  {
    FreshBodies(planets);
    forall i | 0 <= i < |planets|
      ensures |planets[i].moons| <= MaxMoonLetters
      ensures forall k :: 0 <= k < |planets[i].moons| ==> planets[i].moons[k].name == MoonName(NatToString(i + 1), k)
    {
      assert planets[i] == ManualPlanet(NatToString(i + 1), draws[i]);
    }
  }

  /** Manual mode as the game runs it: planets are built for the numbers
      `1 .. planetNum - 1` only, one fewer than asked for. */
  function GenerateManual(a: ManualAnswers): (sys: System)
    requires ValidManualStars(a) && |a.planets| >= a.planetNum - 1
    ensures sys.name == DefaultSystemName && sys.stars == StarSet(a.temps)
    ensures sys.planets == ManualPlanets(a.planets[..a.planetNum - 1])
    ensures |sys.planets| == a.planetNum - 1
    ensures forall i :: 0 <= i < |sys.planets| ==> sys.planets[i] == ManualPlanet(NatToString(i + 1), a.planets[i])
    ensures a.planetNum == 1 ==> sys.planets == []
    ensures StandardNames(sys.planets)
    ensures forall i :: 0 <= i < |sys.planets| ==> sys.planets[i].area != 0
    ensures Uncolonised(sys.planets) && WithinCapacity(sys.planets)
  {
    System(StarSet(a.temps), ManualPlanets(a.planets[..a.planetNum - 1]), DefaultSystemName)
  }

  /** Manual mode with the planet loop running up to `planetNum` inclusive,
      as in random mode: exactly the requested number of planets, so never
      a system without planets. */
  function GenerateManualCorrected(a: ManualAnswers): (sys: System)
    requires ValidManualStars(a) && |a.planets| >= a.planetNum
    ensures sys.name == DefaultSystemName && sys.stars == StarSet(a.temps)
    ensures sys.planets == ManualPlanets(a.planets[..a.planetNum])
    ensures |sys.planets| == a.planetNum >= 1
    ensures forall i :: 0 <= i < |sys.planets| ==> sys.planets[i] == ManualPlanet(NatToString(i + 1), a.planets[i])
    ensures StandardNames(sys.planets)
    ensures forall i :: 0 <= i < |sys.planets| ==> sys.planets[i].area != 0
    ensures Uncolonised(sys.planets) && WithinCapacity(sys.planets)
  {
    System(StarSet(a.temps), ManualPlanets(a.planets[..a.planetNum]), DefaultSystemName)
  }

  /** On the same answers, the game's manual mode builds the requested
      planets except the last one. */
  lemma {:induction false} ManualDropsLastPlanet(a: ManualAnswers)
    requires ValidManualStars(a) && |a.planets| >= a.planetNum
    ensures GenerateManual(a).planets == GenerateManualCorrected(a).planets[..a.planetNum - 1]
    ensures |GenerateManualCorrected(a).planets| == |GenerateManual(a).planets| + 1
  {
    var short := GenerateManual(a).planets;
    var full := GenerateManualCorrected(a).planets;
    forall i | 0 <= i < |short|
      ensures short[i] == full[i]
    {
      assert short[i] == ManualPlanet(NatToString(i + 1), a.planets[i]);
    }
  }

  /** Asking for one planet in manual mode yields a system with none. */
  lemma OnePlanetAskedNoneBuilt()
    ensures ValidManualStars(ManualAnswers(1, [4], 2, 1, []))
    ensures GenerateManual(ManualAnswers(1, [4], 2, 1, [])).planets == []
  {
    assert StarSet([4]) == {Star(4)};
    RootSumOfOne(4, 7, false);
    RootSumOfOne(4, 7, true);
  }

  // ---------------------------------------------------------- whole systems

  /** Random or manual generation, after the maximum-size prompt. */
  datatype Config = RandomConfig(maxSize: nat, draws: RandomDraws) | ManualConfig(answers: ManualAnswers)

  ghost predicate ValidConfig(c: Config) {
    match c
    case RandomConfig(maxSize, d) => ValidRandomDraws(maxSize, d)
    case ManualConfig(a) => ValidManualStars(a) && |a.planets| >= a.planetNum - 1
  }

  /** `generate_system`: every generated body is uncolonised and within
      capacity, and its names follow the numbering scheme. */
  function GenerateSystem(c: Config): (sys: System)
    requires ValidConfig(c)
    ensures sys.name == DefaultSystemName
    ensures StandardNames(sys.planets)
    ensures Uncolonised(sys.planets) && WithinCapacity(sys.planets)
    ensures c.ManualConfig? ==> forall i :: 0 <= i < |sys.planets| ==> sys.planets[i].area != 0
  {
    if c.RandomConfig? then GenerateRandom(c.maxSize, c.draws) else GenerateManual(c.answers)
  }

  // ---------------------------------------------------------------- renaming

  /** Every planet and moon name contains a word, as `split()[-1]` needs. */
  predicate NamesHaveWords(planets: seq<Planet>) {
    forall i :: 0 <= i < |planets| ==>
      && HasNonSpace(planets[i].name)
      && forall k :: 0 <= k < |planets[i].moons| ==> HasNonSpace(planets[i].moons[k].name)
  }

  function RenamedPlanet(p: Planet, newName: string): (q: Planet)
    requires HasNonSpace(p.name)
    requires forall k :: 0 <= k < |p.moons| ==> HasNonSpace(p.moons[k].name)
  {
    var moons := seq(|p.moons|, k requires 0 <= k < |p.moons| =>
      p.moons[k].(name := newName + " " + LastWord(p.moons[k].name)));
    p.(name := newName + " " + LastWord(p.name), moons := moons)
  }

  /** The renaming nested in `generate_system`: each planet and moon keeps
      the last word of its name behind the new system name. */
  function RenameSystem(sys: System, newName: string): (r: System)
    requires NamesHaveWords(sys.planets)
    ensures r.name == newName && r.stars == sys.stars
    ensures SameLayout(sys.planets, r.planets)
    ensures forall i :: 0 <= i < |r.planets| ==>
      r.planets[i].name == newName + " " + LastWord(sys.planets[i].name)
    ensures forall i, k :: 0 <= i < |r.planets| && 0 <= k < |r.planets[i].moons| ==>
      r.planets[i].moons[k].name == newName + " " + LastWord(sys.planets[i].moons[k].name)
  {
    var planets := seq(|sys.planets|, i requires 0 <= i < |sys.planets| => RenamedPlanet(sys.planets[i], newName));
    System(sys.stars, planets, newName)
  }

  /** Renaming keeps every body's identifier: the last word of each name is
      the same before and after, and the result can be renamed again. */
  lemma {:induction false} RenameKeepsIdentifiers(sys: System, newName: string)
    requires NamesHaveWords(sys.planets)
    ensures NamesHaveWords(RenameSystem(sys, newName).planets)
    ensures forall i :: 0 <= i < |sys.planets| ==>
      LastWord(RenameSystem(sys, newName).planets[i].name) == LastWord(sys.planets[i].name)
    ensures forall i, k :: 0 <= i < |sys.planets| && 0 <= k < |sys.planets[i].moons| ==>
      LastWord(RenameSystem(sys, newName).planets[i].moons[k].name) == LastWord(sys.planets[i].moons[k].name)
  {
    var r := RenameSystem(sys, newName);
    forall i | 0 <= i < |sys.planets|
      ensures HasNonSpace(r.planets[i].name)
      ensures LastWord(r.planets[i].name) == LastWord(sys.planets[i].name)
      ensures forall k :: 0 <= k < |r.planets[i].moons| ==>
        HasNonSpace(r.planets[i].moons[k].name)
        && LastWord(r.planets[i].moons[k].name) == LastWord(sys.planets[i].moons[k].name)
    {
      LastWordOfJoin(newName, LastWord(sys.planets[i].name));
      forall k | 0 <= k < |r.planets[i].moons|
        ensures HasNonSpace(r.planets[i].moons[k].name)
        ensures LastWord(r.planets[i].moons[k].name) == LastWord(sys.planets[i].moons[k].name)
      {
        LastWordOfJoin(newName, LastWord(sys.planets[i].moons[k].name));
      }
    }
  }

  /** Renaming twice is renaming once, with the second name. */
  lemma {:induction false} RenameTwice(sys: System, first: string, second: string)
    requires NamesHaveWords(sys.planets)
    ensures NamesHaveWords(RenameSystem(sys, first).planets)
    ensures RenameSystem(RenameSystem(sys, first), second) == RenameSystem(sys, second)
  {
    RenameKeepsIdentifiers(sys, first);
    var once := RenameSystem(sys, first);
    var twice := RenameSystem(once, second);
    var direct := RenameSystem(sys, second);
    forall i | 0 <= i < |sys.planets|
      ensures twice.planets[i] == direct.planets[i]
    {
      assert twice.planets[i].moons == direct.planets[i].moons;
    }
    assert twice.planets == direct.planets;
  }

  // ------------------------------------------------------------ body index

  /** The index key of a body: its name, lower-cased. */
  function BodyKey(planets: seq<Planet>, r: BodyRef): string
    requires ValidRef(planets, r)
  {
    Lower(BodyName(planets, r))
  }

  function MoonRefs(i: nat, count: nat): (rs: seq<BodyRef>)
    ensures |rs| == count
    ensures forall j :: 0 <= j < count ==> rs[j] == MoonRef(i, j)
  {
    seq(count, j requires 0 <= j < count => MoonRef(i, j))
  }

  /** `a` is inserted into `celestial_dict` before `b`: it belongs to an
      earlier planet, or it is a moon of the same planet that comes before
      `b` among its moons or has `b` as its planet. */
  predicate InsertedBefore(a: BodyRef, b: BodyRef) {
    || a.planet < b.planet
    || (a.planet == b.planet && a.MoonRef? && (b.PlanetRef? || a.moon < b.moon))
  }

  /** Each body of `order` is inserted before every body after it. */
  predicate InsertionOrdered(order: seq<BodyRef>) {
    forall x, y :: 0 <= x < y < |order| ==> InsertedBefore(order[x], order[y])
  }

  /** The order in which `celestial_dict` inserts the bodies: planet after
      planet, each planet's moons first and the planet itself last. The
      order lists every body and nothing else, each once, in that order. */
  function BodyOrder(planets: seq<Planet>): (order: seq<BodyRef>)
    ensures forall r :: r in order <==> ValidRef(planets, r)
    ensures InsertionOrdered(order)
    decreases |planets|
  {
    if |planets| == 0 then []
    else
      var n := |planets| - 1;
      var init := planets[..n];
      var before := BodyOrder(init);
      var moons := MoonRefs(n, |planets[n].moons|);
      assert forall r :: ValidRef(init, r) <==> ValidRef(planets, r) && r.planet < n by {
        assert forall i :: 0 <= i < n ==> init[i] == planets[i];
      }
      assert forall r :: r in moons <==> r.MoonRef? && r.planet == n && r.moon < |planets[n].moons|;
      AppendPlanetOrdered(before, n, |planets[n].moons|);
      before + moons + [PlanetRef(n)]
  }

  /** Appending a planet's moons and then the planet to the bodies of
      earlier planets keeps the insertion order. */
  lemma {:induction false} AppendPlanetOrdered(before: seq<BodyRef>, n: nat, count: nat)
    requires InsertionOrdered(before)
    requires forall r :: r in before ==> r.planet < n
    ensures InsertionOrdered(before + MoonRefs(n, count) + [PlanetRef(n)])
  {
    var order := before + MoonRefs(n, count) + [PlanetRef(n)];
    forall x, y | 0 <= x < y < |order|
      ensures InsertedBefore(order[x], order[y])
    {
      if y < |before| {
        assert order[x] == before[x] && order[y] == before[y];
      } else if x < |before| {
        assert order[x] == before[x] && before[x] in before;
      } else {
        assert order[x] == MoonRef(n, x - |before|);
      }
    }
  }

  /** Inserting the bodies in order into an empty dictionary under their
      keys; a later body overwrites an earlier one with the same key. */
  function Index(planets: seq<Planet>, refs: seq<BodyRef>): (m: map<string, BodyRef>)
    requires forall r :: r in refs ==> ValidRef(planets, r)
    ensures forall k :: k in m ==> m[k] in refs && BodyKey(planets, m[k]) == k
    ensures forall r :: r in refs ==> BodyKey(planets, r) in m
    decreases |refs|
  {
    if |refs| == 0 then map[]
    else
      var last := refs[|refs| - 1];
      var init := refs[..|refs| - 1];
      assert forall r :: r in refs <==> r in init || r == last by {
        assert refs == init + [last];
      }
      Index(planets, init)[BodyKey(planets, last) := last]
  }

  /** The entry under a key is the body inserted last with that key. */
  lemma {:induction false} IndexLastWins(planets: seq<Planet>, refs: seq<BodyRef>, j: nat)
    requires forall r :: r in refs ==> ValidRef(planets, r)
    requires j < |refs|
    requires forall j' :: j < j' < |refs| ==> BodyKey(planets, refs[j']) != BodyKey(planets, refs[j])
    ensures Index(planets, refs)[BodyKey(planets, refs[j])] == refs[j]
    decreases |refs|
  {
    var init := refs[..|refs| - 1];
    if j < |refs| - 1 {
      assert forall r :: r in init ==> r in refs;
      assert forall j' :: j < j' < |init| ==> init[j'] == refs[j'];
      IndexLastWins(planets, init, j);
    }
  }

  /** `celestial_dict`: every planet and moon under its lower-cased name,
      and every entry a body of the system filed under its own key. */
  function CelestialDict(sys: System): (m: map<string, BodyRef>)
    ensures forall k :: k in m ==> ValidRef(sys.planets, m[k]) && BodyKey(sys.planets, m[k]) == k
    ensures forall b :: ValidRef(sys.planets, b) ==> BodyKey(sys.planets, b) in m
  {
    Index(sys.planets, BodyOrder(sys.planets))
  }

  /** The dictionary's key set is exactly the set of lower-cased body names. */
  lemma CelestialDictKeys(sys: System, key: string)
    ensures key in CelestialDict(sys) <==> exists b :: ValidRef(sys.planets, b) && BodyKey(sys.planets, b) == key
  {
    var m := CelestialDict(sys);
    if key in m {
      assert ValidRef(sys.planets, m[key]);
    }
  }

  /** A body that no later body shares a key with is what its key finds; in
      particular each planet, inserted after its own moons, wins over a moon
      of the same name. */
  lemma CelestialDictLastWins(sys: System, j: nat)
    requires j < |BodyOrder(sys.planets)|
    requires forall j' :: j < j' < |BodyOrder(sys.planets)| ==>
      BodyKey(sys.planets, BodyOrder(sys.planets)[j']) != BodyKey(sys.planets, BodyOrder(sys.planets)[j])
    ensures CelestialDict(sys)[BodyKey(sys.planets, BodyOrder(sys.planets)[j])] == BodyOrder(sys.planets)[j]
  {
    IndexLastWins(sys.planets, BodyOrder(sys.planets), j);
  }

  /** Whatever a key finds is the body looked up or one inserted after it. */
  lemma {:induction false} IndexLatest(planets: seq<Planet>, refs: seq<BodyRef>, j: nat)
    requires forall r :: r in refs ==> ValidRef(planets, r)
    requires j < |refs|
    ensures Index(planets, refs)[BodyKey(planets, refs[j])] in refs[j..]
    decreases |refs|
  {
    var n := |refs| - 1;
    var init := refs[..n];
    var key := BodyKey(planets, refs[j]);
    assert refs == init + [refs[n]];
    assert Index(planets, refs) == Index(planets, init)[BodyKey(planets, refs[n]) := refs[n]];
    if BodyKey(planets, refs[n]) == key {
      assert refs[j..][n - j] == refs[n];
    } else {
      assert forall r :: r in init ==> r in refs;
      assert init[j] == refs[j];
      IndexLatest(planets, init, j);
      var w := Index(planets, init)[key];
      assert Index(planets, refs)[key] == w;
      SuffixOfInit(refs, j);
    }
  }

  /** Dropping the last element before or after taking a suffix. */
  lemma SuffixOfInit<T>(s: seq<T>, j: nat)
    requires j < |s| - 1
    ensures s[..|s| - 1][j..] == s[j..|s| - 1]
    ensures s[j..] == s[j..|s| - 1] + [s[|s| - 1]]
  {
  }

  /** The body a key finds is the body itself or one inserted later with
      the same key: a planet beats its own moons and every body of an
      earlier planet, a moon beats the moons before it. */
  lemma CelestialDictLatest(sys: System, b: BodyRef)
    requires ValidRef(sys.planets, b)
    ensures var w := CelestialDict(sys)[BodyKey(sys.planets, b)];
      w == b || InsertedBefore(b, w)
  {
    var order := BodyOrder(sys.planets);
    var j :| 0 <= j < |order| && order[j] == b;
    IndexLatest(sys.planets, order, j);
    var w := CelestialDict(sys)[BodyKey(sys.planets, b)];
    InSuffix(order, j, w);
    var p :| j <= p < |order| && order[p] == w;
  }

  /** An element of a suffix sits at or after the suffix's start. */
  lemma InSuffix<T>(s: seq<T>, j: nat, x: T)
    requires j <= |s| && x in s[j..]
    ensures exists p :: j <= p < |s| && s[p] == x
  {
    var q :| 0 <= q < |s[j..]| && s[j..][q] == x;
    assert s[j + q] == x;
  }

  /** A planet that shares its key with one of its own moons is what the key
      finds: the moon is shadowed, whatever the names. */
  lemma PlanetOverOwnMoon(sys: System, i: nat, k: nat)
    requires ValidRef(sys.planets, MoonRef(i, k))
    requires BodyKey(sys.planets, MoonRef(i, k)) == BodyKey(sys.planets, PlanetRef(i))
    ensures var w := CelestialDict(sys)[BodyKey(sys.planets, PlanetRef(i))];
      w == PlanetRef(i) || w.planet > i
    ensures CelestialDict(sys)[BodyKey(sys.planets, MoonRef(i, k))] != MoonRef(i, k)
  {
    CelestialDictLatest(sys, PlanetRef(i));
  }

  /** Of two planets with the same name, the later one is what the name
      finds. */
  lemma ShadowedPlanet(sys: System, i: nat, j: nat)
    requires i < j < |sys.planets|
    requires sys.planets[i].name == sys.planets[j].name
    ensures Lower(sys.planets[i].name) in CelestialDict(sys)
    ensures CelestialDict(sys)[Lower(sys.planets[i].name)] != PlanetRef(i)
  {
    assert BodyName(sys.planets, PlanetRef(j)) == sys.planets[j].name;
    CelestialDictLatest(sys, PlanetRef(j));
  }

  /** No two bodies share a key. */
  ghost predicate DistinctKeys(planets: seq<Planet>) {
    forall a, b :: ValidRef(planets, a) && ValidRef(planets, b) && BodyKey(planets, a) == BodyKey(planets, b) ==> a == b
  }

  /** With distinct keys every body is found under its own name. */
  lemma CelestialDictFindsEveryBody(sys: System, b: BodyRef)
    requires DistinctKeys(sys.planets) && ValidRef(sys.planets, b)
    ensures CelestialDict(sys)[BodyKey(sys.planets, b)] == b
  {
    var m := CelestialDict(sys);
    var k := BodyKey(sys.planets, b);
    assert ValidRef(sys.planets, m[k]) && BodyKey(sys.planets, m[k]) == k;
  }

  /** The key of a body under the numbering scheme. */
  function StandardKey(r: BodyRef): string
    requires r.MoonRef? ==> r.moon < MaxMoonLetters
  {
    match r
    case PlanetRef(i) => NatToString(i + 1)
    case MoonRef(i, k) => MoonName(NatToString(i + 1), k)
  }

  /** A planet's key ends in a digit, a moon's key in its letter after the
      planet's digits. */
  lemma StandardKeyShape(r: BodyRef)
    requires r.MoonRef? ==> r.moon < MaxMoonLetters
    ensures |StandardKey(r)| >= 1
    ensures r.PlanetRef? ==> '0' <= StandardKey(r)[|StandardKey(r)| - 1] <= '9'
    ensures r.MoonRef? ==> StandardKey(r)[|StandardKey(r)| - 1] == (97 + r.moon) as char
    ensures r.MoonRef? ==> StandardKey(r)[..|StandardKey(r)| - 1] == NatToString(r.planet + 1)
  {
  }

  lemma {:induction false} StandardKeyInjective(a: BodyRef, b: BodyRef)
    requires a.MoonRef? ==> a.moon < MaxMoonLetters
    requires b.MoonRef? ==> b.moon < MaxMoonLetters
    requires StandardKey(a) == StandardKey(b)
    ensures a == b
  {
    StandardKeyShape(a);
    StandardKeyShape(b);
    if a.PlanetRef? && b.PlanetRef? {
      NatToStringInjective(a.planet + 1, b.planet + 1);
    } else if a.MoonRef? && b.MoonRef? {
      NatToStringInjective(a.planet + 1, b.planet + 1);
    }
  }

  /** Generated names never collide, so the index holds every generated
      body under its own key. */
  lemma {:induction false} StandardNamesDistinct(planets: seq<Planet>)
    requires StandardNames(planets)
    ensures DistinctKeys(planets)
  {
    forall r | ValidRef(planets, r)
      ensures (r.MoonRef? ==> r.moon < MaxMoonLetters) && BodyKey(planets, r) == StandardKey(r)
    {
      var name := BodyName(planets, r);
      assert name == StandardKey(r);
      assert Lower(name) == name;
    }
    forall a, b | ValidRef(planets, a) && ValidRef(planets, b) && BodyKey(planets, a) == BodyKey(planets, b)
      ensures a == b
    {
      StandardKeyInjective(a, b);
    }
  }
}

=== FILE: helpers.dfy ===
/** The acceptance rules of the game's console prompts. Each prompt reads
    a line, decides whether to accept it and what to return, and otherwise
    asks again. The decision for one line is a pure function here; a
    prompt's whole loop is the first accepted line of a sequence of lines. */
module Helpers {
  import opened Wrappers
  import opened Text

  /** The accepted answer and the position of the line that gave it. */
  datatype Answer<T> = Answer(value: T, attempt: nat)

  /** The prompt loop: the first line whose decision is an answer. */
  function FirstAnswer<A, T>(lines: seq<A>, decide: A -> Option<T>): (r: Option<Answer<T>>)
    ensures r.Some? ==> r.value.attempt < |lines| && decide(lines[r.value.attempt]) == Some(r.value.value)
    ensures r.Some? ==> forall k :: 0 <= k < r.value.attempt ==> decide(lines[k]).None?
    ensures r.None? ==> forall k :: 0 <= k < |lines| ==> decide(lines[k]).None?
    decreases |lines|
  {
    if |lines| == 0 then None
    else match decide(lines[0])
      case Some(v) => Some(Answer(v, 0))
      case None =>
        match FirstAnswer(lines[1..], decide)
        case None => None
        case Some(a) => Some(Answer(a.value, a.attempt + 1))
  }

  // -------------------------------------------------------------- num_choice

  /** The bound `num_choice` enforces: inclusive on both sides when an upper
      bound is given, otherwise only the lower bound. */
  predicate NumAccepts(n: int, lower: int, upper: Option<int>) {
    match upper
    case Some(u) => !(n < lower || n > u)
    case None => !(n < lower)
  }

  /** One line of `num_choice`: `None` for text that is not an integer,
      otherwise the integer when it is within bounds. */
  function NumDecision(line: Option<int>, lower: int, upper: Option<int>): Option<int> {
    match line
    case None => None
    case Some(n) => if NumAccepts(n, lower, upper) then Some(n) else None
  }

  /** `num_choice`: the first integer line inside the bounds. */
  function NumChoice(lines: seq<Option<int>>, lower: int, upper: Option<int>): (r: Option<Answer<int>>)
    ensures r.Some? ==> NumAccepts(r.value.value, lower, upper)
    ensures r.Some? ==> r.value.attempt < |lines| && lines[r.value.attempt] == Some(r.value.value)
    ensures r.Some? ==> forall k :: 0 <= k < r.value.attempt ==>
      lines[k].None? || !NumAccepts(lines[k].value, lower, upper)
    ensures r.None? <==> forall k :: 0 <= k < |lines| ==>
      lines[k].None? || !NumAccepts(lines[k].value, lower, upper)
  {
    var decide := (line: Option<int>) => NumDecision(line, lower, upper);
    var r := FirstAnswer(lines, decide);
    assert forall k :: 0 <= k < |lines| ==> decide(lines[k]) == NumDecision(lines[k], lower, upper);
    r
  }

  /** With both bounds given, `num_choice` accepts exactly the closed range. */
  lemma NumAcceptsRange(n: int, lower: int, upper: int)
    ensures NumAccepts(n, lower, Some(upper)) <==> lower <= n <= upper
  {
  }

  // ------------------------------------------------------------- bool_choice

  /** One line of `bool_choice(message, yes, no)`: a blank line is refused;
      a line whose first `|yes|` characters lower-case to `yes` is `true`;
      otherwise one whose first `|no|` characters lower-case to `no` is
      `false`; anything else is refused. */
  function BoolDecision(line: string, yes: string, no: string): (r: Option<bool>)
    ensures Strip(line) == [] ==> r.None?
    ensures r == Some(true) <==> Strip(line) != [] && Lower(Take(Strip(line), |yes|)) == yes
    ensures r == Some(false) <==>
      && Strip(line) != []
      && Lower(Take(Strip(line), |yes|)) != yes
      && Lower(Take(Strip(line), |no|)) == no
    ensures r.None? <==>
      || Strip(line) == []
      || (Lower(Take(Strip(line), |yes|)) != yes && Lower(Take(Strip(line), |no|)) != no)
  {
    var choice := Strip(line);
    if choice == [] then None
    else if Lower(Take(choice, |yes|)) == yes then Some(true)
    else if Lower(Take(choice, |no|)) == no then Some(false)
    else None
  }

  /** `yes` is tested first: a line that matches both prefixes means yes. */
  lemma {:induction false} YesWinsOverNo(line: string, yes: string, no: string)
    requires Strip(line) != []
    requires Lower(Take(Strip(line), |yes|)) == yes
    ensures BoolDecision(line, yes, no) == Some(true)
  {
  }

  /** A lower-case `yes` with no outer whitespace accepts every line that
      starts with it, whatever follows. */
  lemma {:induction false} LineStartingWithYes(yes: string, no: string, rest: string)
    requires |yes| > 0 && Trimmed(yes) && IsLower(yes)
    ensures BoolDecision(yes + rest, yes, no) == Some(true)
  {
    StripKeepsLeadingWord(yes, rest);
    var c := Strip(yes + rest);
    assert Take(c, |yes|) == yes;
  }

  /** With the default answers `y` and `n`, only the first non-blank
      character of the line matters. */
  lemma {:induction false} DefaultYesNo(line: string)
    requires HasNonSpace(line)
    ensures Strip(line) != []
    ensures BoolDecision(line, "y", "n") ==
      var c := LowerChar(Strip(line)[0]);
      if c == 'y' then Some(true) else if c == 'n' then Some(false) else None
  {
    var choice := Strip(line);
    assert choice != [];
    assert Take(choice, 1) == [choice[0]];
    assert Lower([choice[0]]) == [LowerChar(choice[0])];
  }

  /** `bool_choice`: the first line that answers yes or no. */
  function BoolChoice(lines: seq<string>, yes: string, no: string): (r: Option<Answer<bool>>)
    ensures r.Some? ==> r.value.attempt < |lines| && BoolDecision(lines[r.value.attempt], yes, no) == Some(r.value.value)
    ensures r.Some? ==> forall k :: 0 <= k < r.value.attempt ==> BoolDecision(lines[k], yes, no).None?
    ensures r.None? <==> forall k :: 0 <= k < |lines| ==> BoolDecision(lines[k], yes, no).None?
  {
    var decide := (line: string) => BoolDecision(line, yes, no);
    var r := FirstAnswer(lines, decide);
    assert forall k :: 0 <= k < |lines| ==> decide(lines[k]) == BoolDecision(lines[k], yes, no);
    r
  }

  // -------------------------------------------------------------- any_choice

  /** One line of `any_choice`: only the exactly empty line is refused, and
      the accepted line is returned stripped. */
  function AnyDecision(line: string): (r: Option<string>)
    ensures r.None? <==> line == []
    ensures r.Some? ==> r.value == Strip(line) && Trimmed(r.value)
  {
    if line == [] then None else Some(Strip(line))
  }

  /** A line of blanks is accepted and yields the empty string. */
  lemma {:induction false} BlankLineGivesEmpty(line: string)
    requires line != [] && AllSpace(line)
    ensures AnyDecision(line) == Some([])
  {
  }

  /** `any_choice`: the first non-empty line, stripped. */
  function AnyChoice(lines: seq<string>): (r: Option<Answer<string>>)
    ensures r.Some? ==> r.value.attempt < |lines| && lines[r.value.attempt] != []
    ensures r.Some? ==> r.value.value == Strip(lines[r.value.attempt])
    ensures r.Some? ==> forall k :: 0 <= k < r.value.attempt ==> lines[k] == []
    ensures r.None? <==> forall k :: 0 <= k < |lines| ==> lines[k] == []
  {
    var r := FirstAnswer(lines, AnyDecision);
    assert forall k :: 0 <= k < |lines| ==> (AnyDecision(lines[k]).None? <==> lines[k] == []);
    r
  }

  // ------------------------------------------------------------- list_choice

  /** The two kinds of option collection `list_choice` is called with: a list
      or set of strings, or a dictionary keyed by strings. */
  datatype Options = Listed(items: set<string>) | Keyed(keys: set<string>)

  /** One line of `list_choice`: the line is lower-cased; a list or set
      accepts it only when that lower-cased line is a member, a dictionary
      accepts every line (its lookup with `get` never fails); the answer is
      the lower-cased line stripped. */
  function ListDecision(line: string, options: Options): (r: Option<string>)
    ensures options.Keyed? ==> r.Some?
    ensures options.Listed? ==> (r.Some? <==> Lower(line) in options.items)
    ensures r.Some? ==> r.value == Strip(Lower(line))
  {
    var choice := Lower(line);
    match options
    case Listed(items) => if choice in items then Some(Strip(choice)) else None
    case Keyed(_) => Some(Strip(choice))
  }

  /** When the listed options are lower-case and have no outer whitespace,
      as every list the game passes does, the answer is one of them. */
  lemma {:induction false} ListAnswerIsAnOption(line: string, items: set<string>)
    requires forall item :: item in items ==> Trimmed(item)
    ensures ListDecision(line, Listed(items)).Some? ==> ListDecision(line, Listed(items)).value in items
  {
    var choice := Lower(line);
    if choice in items {
      StripTrimmed(choice);
    }
  }
}

=== FILE: play.dfy ===
/** The operations nested in the game's `play` routine: finding a body by
    name, establishing a colony, purchasing a ship, moving a fleet, the two
    ways bodies are renamed while the system is read out, and the default
    players. Every user answer and every minted name is a parameter. */
module Play {
  import opened Wrappers
  import opened Text
  import opened Entities
  import opened Helpers
  import opened Generation

  // ------------------------------------------------------------- body lookup

  /** The order in which `establish_colony` compares names: planet `i`
      first, then its moons in order, then planet `i + 1`. */
  predicate ScannedBefore(a: BodyRef, b: BodyRef) {
    || a.planet < b.planet
    || (a.planet == b.planet && a.PlanetRef? && b.MoonRef?)
    || (a.planet == b.planet && a.MoonRef? && b.MoonRef? && a.moon < b.moon)
  }

  /** Of two different bodies, one is scanned before the other. */
  lemma ScanOrderTotal(a: BodyRef, b: BodyRef)
    requires !ScannedBefore(a, b) && !ScannedBefore(b, a)
    ensures a == b
  {
  }

  function LocateMoon(moons: seq<Moon>, key: string, from: nat): (r: Option<nat>)
    requires from <= |moons|
    ensures r.Some? ==> from <= r.value < |moons| && Lower(moons[r.value].name) == key
    ensures r.Some? ==> forall k :: from <= k < r.value ==> Lower(moons[k].name) != key
    ensures r.None? ==> forall k :: from <= k < |moons| ==> Lower(moons[k].name) != key
    decreases |moons| - from
  {
    if from == |moons| then None
    else if Lower(moons[from].name) == key then Some(from)
    else LocateMoon(moons, key, from + 1)
  }

  function LocateFrom(planets: seq<Planet>, key: string, from: nat): (r: Option<BodyRef>)
    requires from <= |planets|
    ensures r.Some? ==> ValidRef(planets, r.value) && r.value.planet >= from && BodyKey(planets, r.value) == key
    ensures r.Some? ==> forall b :: ValidRef(planets, b) && b.planet >= from && ScannedBefore(b, r.value) ==>
      BodyKey(planets, b) != key
    ensures r.None? ==> forall b :: ValidRef(planets, b) && b.planet >= from ==> BodyKey(planets, b) != key
    decreases |planets| - from
  {
    if from == |planets| then None
    else if Lower(planets[from].name) == key then Some(PlanetRef(from))
    else match LocateMoon(planets[from].moons, key, 0)
      case Some(k) => Some(MoonRef(from, k))
      case None => LocateFrom(planets, key, from + 1)
  }

  /** The search of `establish_colony`: the first body in scan order whose
      lower-cased name equals the lower-cased query, and nothing when no
      body has that name. */
  function Locate(planets: seq<Planet>, query: string): (r: Option<BodyRef>)
    ensures r.Some? ==> ValidRef(planets, r.value) && BodyKey(planets, r.value) == Lower(query)
    ensures r.Some? ==> forall b :: ValidRef(planets, b) && ScannedBefore(b, r.value) ==>
      BodyKey(planets, b) != Lower(query)
    ensures r.None? <==> forall b :: ValidRef(planets, b) ==> BodyKey(planets, b) != Lower(query)
  {
    LocateFrom(planets, Lower(query), 0)
  }

  /** The search and the body index know the same names, and when no two
      bodies share a name they find the same body. */
  lemma LocateAgreesWithIndex(sys: System, query: string)
    ensures Locate(sys.planets, query).Some? <==> Lower(query) in CelestialDict(sys)
    ensures DistinctKeys(sys.planets) && Locate(sys.planets, query).Some? ==>
      CelestialDict(sys)[Lower(query)] == Locate(sys.planets, query).value
  {
    CelestialDictKeys(sys, Lower(query));
    var r := Locate(sys.planets, query);
    if DistinctKeys(sys.planets) && r.Some? {
      CelestialDictFindsEveryBody(sys, r.value);
    }
  }

  /** A planet `A` with a moon `B`, followed by a planet `B`. */
  const ShadowedMoon: seq<Planet> := [Planet("A", 3, [Moon("B", 1, map[])], map[]), Planet("B", 3, [], map[])]

  lemma ShadowedMoonOrder()
    ensures BodyOrder(ShadowedMoon) == [MoonRef(0, 0), PlanetRef(0), PlanetRef(1)]
  {
    assert ShadowedMoon[..1][..0] == [];
    assert BodyOrder(ShadowedMoon[..1][..0]) == [];
    assert MoonRefs(0, 1) == [MoonRef(0, 0)];
    assert BodyOrder(ShadowedMoon[..1]) == [MoonRef(0, 0), PlanetRef(0)];
    assert MoonRefs(1, 0) == [];
  }

  /** When a moon and a planet after it share a name, and no body scanned
      before the moon has that name, the search finds the moon while the
      body index holds the later planet or a body after it: the two lookups
      disagree. */
  lemma {:induction false} SearchFindsShadowedMoon(sys: System, query: string, i: nat, k: nat, j: nat)
    requires ValidRef(sys.planets, MoonRef(i, k))
    requires i < j < |sys.planets|
    requires BodyKey(sys.planets, MoonRef(i, k)) == Lower(query)
    requires BodyKey(sys.planets, PlanetRef(j)) == Lower(query)
    requires forall b :: ValidRef(sys.planets, b) && ScannedBefore(b, MoonRef(i, k)) ==>
      BodyKey(sys.planets, b) != Lower(query)
    ensures Locate(sys.planets, query) == Some(MoonRef(i, k))
    ensures Lower(query) in CelestialDict(sys)
    ensures CelestialDict(sys)[Lower(query)] != MoonRef(i, k)
    ensures CelestialDict(sys)[Lower(query)] == PlanetRef(j) || InsertedBefore(PlanetRef(j), CelestialDict(sys)[Lower(query)])
  {
    var m := MoonRef(i, k);
    var r := Locate(sys.planets, query);
    assert r.Some?;
    assert !ScannedBefore(r.value, m);
    assert !ScannedBefore(m, r.value);
    ScanOrderTotal(r.value, m);
    CelestialDictLatest(sys, PlanetRef(j));
  }

  /** The search for `b` in `ShadowedMoon` stops at the moon `B`, scanned
      before the planet `B`. */
  lemma {:induction false} SearchInShadowedMoon()
    ensures Locate(ShadowedMoon, "b") == Some(MoonRef(0, 0))
  {
    assert Lower("A") == "a" && Lower("B") == "b" && Lower("b") == "b";
    assert LocateMoon(ShadowedMoon[0].moons, "b", 0) == Some(0);
  }

  /** The index keeps the planet `B`, inserted after the moon `B`. */
  lemma {:induction false} IndexKeepsLaterPlanet()
    ensures "b" in CelestialDict(System({}, ShadowedMoon, "X"))
    ensures CelestialDict(System({}, ShadowedMoon, "X"))["b"] == PlanetRef(1)
  {
    ShadowedMoonOrder();
    var order := BodyOrder(ShadowedMoon);
    assert order[2] == PlanetRef(1);
    assert BodyName(ShadowedMoon, PlanetRef(1)) == "B";
    assert Lower("B") == "b";
    assert BodyKey(ShadowedMoon, order[2]) == "b";
    IndexLastWins(ShadowedMoon, order, 2);
  }

  // ------------------------------------------------------- establish_colony

  datatype Rejection = NotFound | GasGiant | Full

  /** `establish_colony` for `player`, asked for the body named `query`,
      with `name` the custom or minted colony name. A planet's colony is
      named and keyed by the lower-cased name; a moon's colony keeps the
      name as given and is keyed by its lower-cased form. The colony is
      filed under that key in the body and in the player's colonies, and
      its name joins the names in use. */
  function EstablishColony(w: World, player: nat, query: string, name: string): (r: Result<World, Rejection>)
    requires player < |w.players|
    ensures r == Failure(NotFound) <==> Locate(w.system.planets, query).None?
    ensures r.Success? <==>
      && Locate(w.system.planets, query).Some?
      && |BodyColonies(w.system.planets, Locate(w.system.planets, query).value)| <
         BodyArea(w.system.planets, Locate(w.system.planets, query).value)
    ensures r == Failure(GasGiant) <==>
      && Locate(w.system.planets, query).Some?
      && Locate(w.system.planets, query).value.PlanetRef?
      && BodyArea(w.system.planets, Locate(w.system.planets, query).value) == 0
    ensures r.Success? ==>
      var b := Locate(w.system.planets, query).value;
      var planets := w.system.planets;
      var planets' := r.value.system.planets;
      var c := |w.colonies|;
      var colonyName := if b.PlanetRef? then Lower(name) else name;
      && r.value.system.stars == w.system.stars && r.value.system.name == w.system.name
      && (forall x :: ValidRef(planets', x) <==> ValidRef(planets, x))
      && (forall x :: ValidRef(planets, x) ==>
            && BodyName(planets', x) == BodyName(planets, x)
            && BodyArea(planets', x) == BodyArea(planets, x)
            && BodyColonies(planets', x) == if x == b then BodyColonies(planets, b)[Lower(name) := c] else BodyColonies(planets, x))
      && r.value.colonies == w.colonies + [Colony(player, colonyName, map[], ProductionPerTurn)]
      && |r.value.players| == |w.players|
      && r.value.players[player] == w.players[player].(ownedColonies := w.players[player].ownedColonies[Lower(name) := c])
      && (forall p :: 0 <= p < |w.players| && p != player ==> r.value.players[p] == w.players[p])
      && r.value.fleets == w.fleets
      && r.value.usedNames == w.usedNames + {colonyName}
  {
    var planets := w.system.planets;
    match Locate(planets, query)
    case None => Failure(NotFound)
    case Some(b) =>
      var cols := BodyColonies(planets, b);
      if |cols| < BodyArea(planets, b) then
        var colonyName := if b.PlanetRef? then Lower(name) else name;
        var c := |w.colonies|;
        var p := w.players[player];
        Success(w.(
          system := w.system.(planets := WithColonies(planets, b, cols[Lower(name) := c])),
          players := w.players[player := p.(ownedColonies := p.ownedColonies[Lower(name) := c])],
          colonies := w.colonies + [Colony(player, colonyName, map[], ProductionPerTurn)],
          usedNames := w.usedNames + {colonyName}))
      else if b.PlanetRef? && BodyArea(planets, b) == 0 then Failure(GasGiant)
      else Failure(Full)
  }

  lemma MapUpdateSize<K, V>(m: map<K, V>, k: K, v: V)
    ensures |m[k := v]| <= |m| + 1
  {
  }

  /** Establishing a colony never puts a body over its area. */
  lemma EstablishKeepsCapacity(w: World, player: nat, query: string, name: string)
    requires player < |w.players|
    requires WithinCapacity(w.system.planets)
    ensures EstablishColony(w, player, query, name).Success? ==>
      WithinCapacity(EstablishColony(w, player, query, name).value.system.planets)
  {
    var r := EstablishColony(w, player, query, name);
    if r.Success? {
      var b := Locate(w.system.planets, query).value;
      MapUpdateSize(BodyColonies(w.system.planets, b), Lower(name), |w.colonies|);
    }
  }

  /** A body whose area is zero, a randomly generated gas giant, never
      receives a colony. */
  lemma GasGiantStaysEmpty(w: World, player: nat, query: string, name: string)
    requires player < |w.players|
    requires Locate(w.system.planets, query).Some?
    requires BodyArea(w.system.planets, Locate(w.system.planets, query).value) == 0
    ensures EstablishColony(w, player, query, name).Failure?
  {
  }

  // ---------------------------------------------------------- purchase_ship

  datatype PurchaseError = UnknownBuild | UnknownColony | MergeUnsupported

  /** A completed purchase: the new world, the ship's name and whether a
      custom name repeats the name of one of the player's ships. */
  datatype Receipt = Receipt(world: World, shipName: string, nameClash: bool)

  /** The catalogue key read from the build answer: the dictionary prompt's
      answer, lower-cased once more. */
  function BuildKey(line: string): string {
    Lower(ListDecision(line, Keyed(Catalog.Keys)).value)
  }

  /** The key of the build site read from the site answer. */
  function SiteKey(owned: map<string, nat>, line: string): string {
    ListDecision(line, Keyed(owned.Keys)).value
  }

  /** How many of `members` are of the build named `buildName`. */
  function BuildCount(members: seq<Ship>, buildName: string): (n: nat)
    ensures n <= |members|
    ensures n == 0 <==> forall j :: 0 <= j < |members| ==> members[j].build.name != buildName
  {
    if |members| == 0 then 0
    else BuildCount(members[..|members| - 1], buildName) + (if members[|members| - 1].build.name == buildName then 1 else 0)
  }

  /** The player's ships of that build, over the first `upTo` fleets of the
      arena that the player's fleet map holds. */
  function OwnedBuildCount(w: World, player: nat, buildName: string, upTo: nat): nat
    requires player < |w.players| && upTo <= |w.fleets|
  {
    if upTo == 0 then 0
    else
      OwnedBuildCount(w, player, buildName, upTo - 1)
      + (if upTo - 1 in w.players[player].ownedFleets.Values then BuildCount(w.fleets[upTo - 1].members, buildName) else 0)
  }

  /** The player's ships of that build across all the fleets they own. */
  function ShipsOfBuild(w: World, player: nat, buildName: string): nat
    requires player < |w.players|
  {
    OwnedBuildCount(w, player, buildName, |w.fleets|)
  }

  /** Whether one of the player's ships already has that name. */
  predicate NameInUse(w: World, player: nat, shipName: string)
    requires player < |w.players|
  {
    exists i, j :: 0 <= i < |w.fleets| && i in w.players[player].ownedFleets.Values
      && 0 <= j < |w.fleets[i].members| && w.fleets[i].members[j].name == shipName
  }

  /** The name of the new ship: the custom name when one is given, else the
      build name followed by one more than the number of the player's ships
      of that build. */
  function ShipName(w: World, player: nat, build: Build, customName: Option<string>): (n: string)
    requires player < |w.players|
    ensures customName.Some? ==> n == customName.value
    ensures customName.None? ==> n == build.name + NatToString(ShipsOfBuild(w, player, build.name) + 1)
  {
    match customName
    case Some(given) => given
    case None => build.name + NatToString(ShipsOfBuild(w, player, build.name) + 1)
  }

  /** A new fleet of `player` appended to the arena, docked at colony `c`
      and filed in the player's fleets under its name; nothing else
      changes. */
  function DockNewFleet(w: World, player: nat, c: nat, fleet: Fleet): (w': World)
    requires player < |w.players| && c < |w.colonies|
    ensures w'.system == w.system && w'.usedNames == w.usedNames
    ensures w'.fleets == w.fleets + [fleet]
    ensures |w'.colonies| == |w.colonies|
    ensures w'.colonies[c] == w.colonies[c].(docked := w.colonies[c].docked[fleet.name := |w.fleets|])
    ensures forall i :: 0 <= i < |w.colonies| && i != c ==> w'.colonies[i] == w.colonies[i]
    ensures |w'.players| == |w.players|
    ensures w'.players[player] == w.players[player].(ownedFleets := w.players[player].ownedFleets[fleet.name := |w.fleets|])
    ensures forall p :: 0 <= p < |w.players| && p != player ==> w'.players[p] == w.players[p]
  {
    var site := w.colonies[c];
    var owner := w.players[player];
    var f := |w.fleets|;
    w.(colonies := w.colonies[c := site.(docked := site.docked[fleet.name := f])],
       players := w.players[player := owner.(ownedFleets := owner.ownedFleets[fleet.name := f])],
       fleets := w.fleets + [fleet])
  }

  /** `purchase_ship` for `player`: the answers to the build and site
      prompts, the custom name if the player chose one, and whether the
      player asked to merge into a docked fleet. The new ship forms a fleet
      of its own, docked at the build site and filed under its name in the
      site's docked fleets and in the player's fleets. */
  function PurchaseShip(w: World, player: nat, buildLine: string, siteLine: string,
                        customName: Option<string>, merge: bool): (r: Result<Receipt, PurchaseError>)
    requires player < |w.players|
    requires forall k :: k in w.players[player].ownedColonies ==> w.players[player].ownedColonies[k] < |w.colonies|
    ensures r == Failure(UnknownBuild) <==> BuildKey(buildLine) !in Catalog
    ensures r == Failure(UnknownColony) <==>
      BuildKey(buildLine) in Catalog && SiteKey(w.players[player].ownedColonies, siteLine) !in w.players[player].ownedColonies
    ensures r == Failure(MergeUnsupported) <==>
      && BuildKey(buildLine) in Catalog
      && SiteKey(w.players[player].ownedColonies, siteLine) in w.players[player].ownedColonies
      && merge
      && |w.colonies[w.players[player].ownedColonies[SiteKey(w.players[player].ownedColonies, siteLine)]].docked| != 0
    ensures r.Success? ==>
      var build := Catalog[BuildKey(buildLine)];
      var owned := w.players[player].ownedColonies;
      var c := owned[SiteKey(owned, siteLine)];
      var name := r.value.shipName;
      var fleetName := name + " Fleet";
      var f := |w.fleets|;
      var w' := r.value.world;
      && name == ShipName(w, player, build, customName)
      && r.value.nameClash == (customName.Some? && NameInUse(w, player, name))
      && w'.system == w.system && w'.usedNames == w.usedNames
      && w'.fleets == w.fleets + [Fleet(fleetName, player, At(ColonySite(c)), [Ship(name, build, fleetName)])]
      && |w'.colonies| == |w.colonies|
      && w'.colonies[c] == w.colonies[c].(docked := w.colonies[c].docked[fleetName := f])
      && (forall i :: 0 <= i < |w.colonies| && i != c ==> w'.colonies[i] == w.colonies[i])
      && |w'.players| == |w.players|
      && w'.players[player] == w.players[player].(ownedFleets := w.players[player].ownedFleets[fleetName := f])
      && (forall p :: 0 <= p < |w.players| && p != player ==> w'.players[p] == w.players[p])
  {
    var key := BuildKey(buildLine);
    if key !in Catalog then Failure(UnknownBuild)
    else
      var build := Catalog[key];
      var owner := w.players[player];
      var siteKey := SiteKey(owner.ownedColonies, siteLine);
      if siteKey !in owner.ownedColonies then Failure(UnknownColony)
      else
        var c := owner.ownedColonies[siteKey];
        var site := w.colonies[c];
        var name := ShipName(w, player, build, customName);
        var clash := customName.Some? && NameInUse(w, player, name);
        if |site.docked| != 0 && merge then Failure(MergeUnsupported)
        else
          var fleetName := name + " Fleet";
          var fleet := Fleet(fleetName, player, At(ColonySite(c)), [Ship(name, build, fleetName)]);
          Success(Receipt(DockNewFleet(w, player, c, fleet), name, clash))
  }

  /** Extending the arena by a fleet the player's map does not reach leaves
      the count over the old part of the arena as it was. */
  lemma {:induction false} OwnedBuildCountFrame(w: World, w': World, player: nat, buildName: string, upTo: nat)
    requires player < |w.players| && player < |w'.players|
    requires upTo <= |w.fleets| && upTo <= |w'.fleets|
    requires forall i :: 0 <= i < upTo ==> w'.fleets[i] == w.fleets[i]
    requires forall i :: 0 <= i < upTo ==>
      (i in w'.players[player].ownedFleets.Values <==> i in w.players[player].ownedFleets.Values)
    ensures OwnedBuildCount(w', player, buildName, upTo) == OwnedBuildCount(w, player, buildName, upTo)
  {
    if upTo > 0 {
      OwnedBuildCountFrame(w, w', player, buildName, upTo - 1);
    }
  }

  /** Adding one fleet at the end of the arena under a name the player's
      map did not hold adds that fleet's ships to the player's count. */
  lemma {:induction false} AddFleetCount(w: World, w': World, player: nat, fleetName: string, buildName: string)
    requires player < |w.players| && player < |w'.players|
    requires forall k :: k in w.players[player].ownedFleets ==> w.players[player].ownedFleets[k] < |w.fleets|
    requires fleetName !in w.players[player].ownedFleets
    requires |w'.fleets| == |w.fleets| + 1 && w'.fleets[..|w.fleets|] == w.fleets
    requires w'.players[player].ownedFleets == w.players[player].ownedFleets[fleetName := |w.fleets|]
    ensures ShipsOfBuild(w', player, buildName) ==
      ShipsOfBuild(w, player, buildName) + BuildCount(w'.fleets[|w.fleets|].members, buildName)
  {
    var f := |w.fleets|;
    var owned := w.players[player].ownedFleets;
    var owned' := w'.players[player].ownedFleets;
    forall i | 0 <= i < f
      ensures w'.fleets[i] == w.fleets[i]
      ensures i in owned'.Values <==> i in owned.Values
    {
      assert w'.fleets[..f][i] == w'.fleets[i];
      if i in owned.Values {
        var k :| k in owned && owned[k] == i;
        assert owned'[k] == i;
      }
    }
    OwnedBuildCountFrame(w, w', player, buildName, f);
    assert owned'[fleetName] == f;
  }

  /** The numbering keeps count: when the new fleet's name is not yet one of
      the player's fleets, the player has exactly one more ship of the
      purchased build and as many of every other build as before. So
      purchases under default names are numbered 1, 2, 3, ... per build. */
  lemma {:induction false} PurchaseCountsShip(w: World, player: nat, buildLine: string, siteLine: string,
                                              customName: Option<string>, merge: bool, buildName: string)
    requires player < |w.players|
    requires forall k :: k in w.players[player].ownedColonies ==> w.players[player].ownedColonies[k] < |w.colonies|
    requires forall k :: k in w.players[player].ownedFleets ==> w.players[player].ownedFleets[k] < |w.fleets|
    requires PurchaseShip(w, player, buildLine, siteLine, customName, merge).Success?
    requires PurchaseShip(w, player, buildLine, siteLine, customName, merge).value.shipName + " Fleet"
      !in w.players[player].ownedFleets
    ensures
      var r := PurchaseShip(w, player, buildLine, siteLine, customName, merge).value;
      ShipsOfBuild(r.world, player, buildName) ==
        ShipsOfBuild(w, player, buildName) + (if buildName == Catalog[BuildKey(buildLine)].name then 1 else 0)
  {
    var r := PurchaseShip(w, player, buildLine, siteLine, customName, merge).value;
    var fleetName := r.shipName + " Fleet";
    var members := [Ship(r.shipName, Catalog[BuildKey(buildLine)], fleetName)];
    assert r.world.fleets[..|w.fleets|] == w.fleets;
    AddFleetCount(w, r.world, player, fleetName, buildName);
    assert r.world.fleets[|w.fleets|].members == members;
    assert members[..0] == [];
  }

  /** `a + x == a + y` only when `x == y`. */
  lemma {:induction false} PrefixCancels(a: string, x: string, y: string)
    requires a + x == a + y
    ensures x == y
  {
    assert x == (a + x)[|a|..];
    assert y == (a + y)[|a|..];
  }

  /** Default ship names number the ships of a build: two default names for
      the same build agree exactly when the players counted the same
      number of ships of that build. */
  lemma {:induction false} DefaultNameTracksCount(w: World, player: nat, v: World, other: nat, build: Build)
    requires player < |w.players| && other < |v.players|
    ensures ShipName(w, player, build, None) == ShipName(v, other, build, None) <==>
      ShipsOfBuild(w, player, build.name) == ShipsOfBuild(v, other, build.name)
  {
    var m := ShipsOfBuild(w, player, build.name);
    var n := ShipsOfBuild(v, other, build.name);
    if ShipName(w, player, build, None) == ShipName(v, other, build, None) {
      PrefixCancels(build.name, NatToString(m + 1), NatToString(n + 1));
      NatToStringInjective(m + 1, n + 1);
    }
  }

  /** After a purchase under the default name, the next default name for
      the same build is a different one: default names do not repeat while
      each new fleet gets a name of its own. */
  lemma {:induction false} DefaultNameAdvances(w: World, player: nat, buildLine: string, siteLine: string, merge: bool)
    requires player < |w.players|
    requires forall k :: k in w.players[player].ownedColonies ==> w.players[player].ownedColonies[k] < |w.colonies|
    requires forall k :: k in w.players[player].ownedFleets ==> w.players[player].ownedFleets[k] < |w.fleets|
    requires PurchaseShip(w, player, buildLine, siteLine, None, merge).Success?
    requires PurchaseShip(w, player, buildLine, siteLine, None, merge).value.shipName + " Fleet"
      !in w.players[player].ownedFleets
    ensures
      var r := PurchaseShip(w, player, buildLine, siteLine, None, merge).value;
      player < |r.world.players| && ShipName(r.world, player, Catalog[BuildKey(buildLine)], None) != r.shipName
  {
    var r := PurchaseShip(w, player, buildLine, siteLine, None, merge).value;
    var build := Catalog[BuildKey(buildLine)];
    PurchaseCountsShip(w, player, buildLine, siteLine, None, merge, build.name);
    DefaultNameTracksCount(r.world, player, w, player, build);
  }

  /** A repeated custom name is reported but the purchase still goes ahead. */
  lemma ClashStillPurchases(w: World, player: nat, buildLine: string, siteLine: string, given: string)
    requires player < |w.players|
    requires forall k :: k in w.players[player].ownedColonies ==> w.players[player].ownedColonies[k] < |w.colonies|
    requires BuildKey(buildLine) in Catalog
    requires SiteKey(w.players[player].ownedColonies, siteLine) in w.players[player].ownedColonies
    requires NameInUse(w, player, given)
    ensures PurchaseShip(w, player, buildLine, siteLine, Some(given), false).Success?
    ensures PurchaseShip(w, player, buildLine, siteLine, Some(given), false).value.shipName == given
    ensures PurchaseShip(w, player, buildLine, siteLine, Some(given), false).value.nameClash
  {
  }

  // ------------------------------------------------------------- move_fleet

  /** `move_fleet`: a fleet at a place sets off in orbit from that place to
      the destination; a fleet already in orbit keeps its course. Nothing
      but the location changes. */
  function MoveFleet(f: Fleet, destination: Place): (g: Fleet)
    ensures g.name == f.name && g.owner == f.owner && g.members == f.members
    ensures f.location.At? ==> g.location == Orbit(f.location.place, destination)
    ensures f.location.Orbit? ==> g == f
  {
    match f.location
    case At(origin) => f.(location := Orbit(origin, destination))
    case Orbit(_, _) => f
  }

  /** A fleet set on a course cannot be redirected: a second move changes
      nothing, whatever its destination. */
  lemma MoveTwice(f: Fleet, first: Place, second: Place)
    ensures MoveFleet(MoveFleet(f, first), second) == MoveFleet(f, first)
  {
  }

  /** The `move fleet` command: when the player owns a fleet of that name it
      is moved, and otherwise nothing happens. */
  function MoveOwnedFleet(w: World, player: nat, fleetName: string, destination: Place): (w': World)
    requires player < |w.players|
    requires forall k :: k in w.players[player].ownedFleets ==> w.players[player].ownedFleets[k] < |w.fleets|
    ensures fleetName !in w.players[player].ownedFleets ==> w' == w
    ensures w'.system == w.system && w'.players == w.players && w'.colonies == w.colonies && w'.usedNames == w.usedNames
    ensures |w'.fleets| == |w.fleets|
    ensures forall j :: 0 <= j < |w.fleets| ==>
      && w'.fleets[j].name == w.fleets[j].name
      && w'.fleets[j].owner == w.fleets[j].owner
      && w'.fleets[j].members == w.fleets[j].members
    ensures forall j :: 0 <= j < |w.fleets| && w'.fleets[j] != w.fleets[j] ==>
      && fleetName in w.players[player].ownedFleets
      && j == w.players[player].ownedFleets[fleetName]
    ensures fleetName in w.players[player].ownedFleets ==>
      var i := w.players[player].ownedFleets[fleetName];
      w'.fleets[i].location ==
        if w.fleets[i].location.At? then Orbit(w.fleets[i].location.place, destination) else w.fleets[i].location
  {
    var owned := w.players[player].ownedFleets;
    if fleetName in owned then
      var i := owned[fleetName];
      w.(fleets := w.fleets[i := MoveFleet(w.fleets[i], destination)])
    else w
  }

  // ---------------------------------------------------------------- naming

  /** The prefixing done while the system is read out: every planet and moon
      name gets the system name and a space in front. */
  function PrefixNames(sys: System): (r: System)
    ensures r.name == sys.name && r.stars == sys.stars
    ensures SameLayout(sys.planets, r.planets)
    ensures forall b :: ValidRef(sys.planets, b) ==> BodyName(r.planets, b) == sys.name + " " + BodyName(sys.planets, b)
  {
    var planets := seq(|sys.planets|, i requires 0 <= i < |sys.planets| =>
      var p := sys.planets[i];
      p.(name := sys.name + " " + p.name,
         moons := seq(|p.moons|, k requires 0 <= k < |p.moons| => p.moons[k].(name := sys.name + " " + p.moons[k].name))));
    var r := System(sys.stars, planets, sys.name);
    assert forall b :: ValidRef(sys.planets, b) ==> BodyName(r.planets, b) == sys.name + " " + BodyName(sys.planets, b);
    r
  }

  /** Lower-casing distributes over concatenation. */
  lemma LowerConcat(a: string, b: string)
    ensures Lower(a + b) == Lower(a) + Lower(b)
  {
  }

  /** Names that agree after lower-casing with a common prefix in front
      agree after lower-casing without it. */
  lemma {:induction false} LowerPrefixCancels(pre: string, x: string, y: string)
    requires Lower(pre + x) == Lower(pre + y)
    ensures Lower(x) == Lower(y)
  {
    LowerConcat(pre, x);
    LowerConcat(pre, y);
    assert Lower(x) == (Lower(pre) + Lower(x))[|pre|..];
    assert Lower(y) == (Lower(pre) + Lower(y))[|pre|..];
  }

  /** A common prefix cannot make two names collide: prefixing keeps the
      bodies' keys distinct, so the index still finds every body. */
  lemma {:induction false} PrefixKeepsDistinctKeys(sys: System)
    requires DistinctKeys(sys.planets)
    ensures DistinctKeys(PrefixNames(sys).planets)
  {
    var r := PrefixNames(sys).planets;
    var pre := sys.name + " ";
    forall a, b | ValidRef(r, a) && ValidRef(r, b) && BodyKey(r, a) == BodyKey(r, b)
      ensures a == b
    {
      var x := BodyName(sys.planets, a);
      var y := BodyName(sys.planets, b);
      assert BodyName(r, a) == pre + x;
      assert BodyName(r, b) == pre + y;
      LowerPrefixCancels(pre, x, y);
      assert BodyKey(sys.planets, a) == BodyKey(sys.planets, b);
    }
  }

  /** A generated name, with at most 26 moons per planet, is one word. */
  lemma {:induction false} StandardNameIsWord(planets: seq<Planet>, b: BodyRef)
    requires StandardNames(planets)
    requires forall i :: 0 <= i < |planets| ==> |planets[i].moons| <= 26
    requires ValidRef(planets, b)
    ensures |BodyName(planets, b)| > 0 && NoSpace(BodyName(planets, b))
  {
    var digits := NatToString(b.planet + 1);
    NatToStringIsWord(b.planet + 1);
    if b.MoonRef? {
      var word := digits + [(97 + b.moon) as char];
      assert BodyName(planets, b) == word;
      assert NoSpace(word);
    } else {
      assert BodyName(planets, b) == digits;
    }
  }

  /** The last word of a prefixed generated name is the generated name. */
  lemma {:induction false} PrefixedStandardWords(sys: System)
    requires StandardNames(sys.planets)
    requires forall i :: 0 <= i < |sys.planets| ==> |sys.planets[i].moons| <= 26
    ensures NamesHaveWords(PrefixNames(sys).planets)
    ensures forall b :: ValidRef(sys.planets, b) ==>
      HasNonSpace(BodyName(PrefixNames(sys).planets, b)) &&
      LastWord(BodyName(PrefixNames(sys).planets, b)) == BodyName(sys.planets, b)
  {
    var p := PrefixNames(sys).planets;
    forall b | ValidRef(sys.planets, b)
      ensures HasNonSpace(BodyName(p, b)) && LastWord(BodyName(p, b)) == BodyName(sys.planets, b)
    {
      StandardNameIsWord(sys.planets, b);
      assert BodyName(p, b) == sys.name + " " + BodyName(sys.planets, b);
      LastWordOfJoin(sys.name, BodyName(sys.planets, b));
    }
    PrefixedNamesHaveWords(sys);
  }

  /** Every prefixed generated name has a digit right after the prefix, so
      it has a last word whatever the system name and however many moons a
      planet has. */
  lemma {:induction false} PrefixedNamesHaveWords(sys: System)
    requires StandardNames(sys.planets)
    ensures NamesHaveWords(PrefixNames(sys).planets)
  {
    var p := PrefixNames(sys).planets;
    var at := |sys.name| + 1;
    forall i | 0 <= i < |p|
      ensures HasNonSpace(p[i].name)
      ensures forall k :: 0 <= k < |p[i].moons| ==> HasNonSpace(p[i].moons[k].name)
    {
      var digits := NatToString(i + 1);
      assert ValidRef(sys.planets, PlanetRef(i));
      assert p[i].name == sys.name + " " + digits;
      assert p[i].name[at] == digits[0];
      forall k | 0 <= k < |p[i].moons|
        ensures HasNonSpace(p[i].moons[k].name)
      {
        assert ValidRef(sys.planets, MoonRef(i, k));
        assert p[i].moons[k].name == sys.name + " " + MoonName(digits, k);
        assert p[i].moons[k].name[at] == digits[0];
      }
    }
  }

  /** One planet of the renamed prefixed system is the planet prefixed with
      the new name. */
  lemma {:induction false} RenamedPlanetAfterPrefix(sys: System, newName: string, i: nat)
    requires NamesHaveWords(PrefixNames(sys).planets)
    requires forall b :: ValidRef(sys.planets, b) ==>
      HasNonSpace(BodyName(PrefixNames(sys).planets, b)) &&
      LastWord(BodyName(PrefixNames(sys).planets, b)) == BodyName(sys.planets, b)
    requires i < |sys.planets|
    ensures RenameSystem(PrefixNames(sys), newName).planets[i] == PrefixNames(sys.(name := newName)).planets[i]
  {
    var p := PrefixNames(sys).planets;
    assert ValidRef(sys.planets, PlanetRef(i));
    forall k | 0 <= k < |sys.planets[i].moons|
      ensures HasNonSpace(BodyName(p, MoonRef(i, k)))
      ensures LastWord(BodyName(p, MoonRef(i, k))) == BodyName(sys.planets, MoonRef(i, k))
    {
      assert ValidRef(sys.planets, MoonRef(i, k));
    }
    RenamedPlanetFieldsAfterPrefix(sys, newName, i);
    RenamedMoonsAfterPrefix(sys, newName, i);
  }

  /** The moons of one planet in `RenamedPlanetAfterPrefix`. */
  lemma {:induction false} RenamedMoonsAfterPrefix(sys: System, newName: string, i: nat)
    requires NamesHaveWords(PrefixNames(sys).planets)
    requires i < |sys.planets|
    requires forall k :: 0 <= k < |sys.planets[i].moons| ==>
      HasNonSpace(BodyName(PrefixNames(sys).planets, MoonRef(i, k))) &&
      LastWord(BodyName(PrefixNames(sys).planets, MoonRef(i, k))) == BodyName(sys.planets, MoonRef(i, k))
    ensures RenameSystem(PrefixNames(sys), newName).planets[i].moons == PrefixNames(sys.(name := newName)).planets[i].moons
  {
    var lhs := RenameSystem(PrefixNames(sys), newName).planets;
    var rhs := PrefixNames(sys.(name := newName)).planets;
    forall k | 0 <= k < |sys.planets[i].moons|
      ensures lhs[i].moons[k] == rhs[i].moons[k]
    {
      RenamedMoonAfterPrefix(sys, newName, i, k);
    }
  }

  /** The planet's own fields in `RenamedPlanetAfterPrefix`, given that its
      prefixed name has its old name as last word. */
  lemma {:induction false} RenamedPlanetFieldsAfterPrefix(sys: System, newName: string, i: nat)
    requires NamesHaveWords(PrefixNames(sys).planets)
    requires i < |sys.planets|
    requires HasNonSpace(BodyName(PrefixNames(sys).planets, PlanetRef(i)))
    requires LastWord(BodyName(PrefixNames(sys).planets, PlanetRef(i))) == BodyName(sys.planets, PlanetRef(i))
    ensures var lhs, rhs := RenameSystem(PrefixNames(sys), newName).planets[i], PrefixNames(sys.(name := newName)).planets[i];
      && lhs.name == rhs.name
      && lhs.area == rhs.area
      && lhs.colonies == rhs.colonies
      && |lhs.moons| == |rhs.moons|
  {
    var p := PrefixNames(sys).planets;
    var lhs := RenameSystem(PrefixNames(sys), newName).planets;
    var rhs := PrefixNames(sys.(name := newName)).planets;
    assert BodyName(p, PlanetRef(i)) == p[i].name;
    assert BodyName(rhs, PlanetRef(i)) == rhs[i].name;
    assert lhs[i].area == p[i].area == rhs[i].area;
    assert lhs[i].colonies == p[i].colonies == rhs[i].colonies;
  }

  /** One moon of `RenamedPlanetAfterPrefix`, given that its prefixed name
      has its old name as last word. */
  lemma {:induction false} RenamedMoonAfterPrefix(sys: System, newName: string, i: nat, k: nat)
    requires NamesHaveWords(PrefixNames(sys).planets)
    requires i < |sys.planets| && k < |sys.planets[i].moons|
    requires HasNonSpace(BodyName(PrefixNames(sys).planets, MoonRef(i, k)))
    requires LastWord(BodyName(PrefixNames(sys).planets, MoonRef(i, k))) == BodyName(sys.planets, MoonRef(i, k))
    ensures RenameSystem(PrefixNames(sys), newName).planets[i].moons[k] == PrefixNames(sys.(name := newName)).planets[i].moons[k]
  {
    var p := PrefixNames(sys).planets;
    var lhs := RenameSystem(PrefixNames(sys), newName).planets;
    var rhs := PrefixNames(sys.(name := newName)).planets;
    var m := MoonRef(i, k);
    var id := BodyName(sys.planets, m);
    assert LastWord(p[i].moons[k].name) == id by {
      assert BodyName(p, m) == p[i].moons[k].name;
    }
    assert rhs[i].moons[k].name == newName + " " + id by {
      assert BodyName(rhs, m) == rhs[i].moons[k].name;
    }
    assert lhs[i].moons[k].name == rhs[i].moons[k].name;
    assert lhs[i].moons[k].area == p[i].moons[k].area == rhs[i].moons[k].area;
    assert lhs[i].moons[k].colonies == p[i].moons[k].colonies == rhs[i].moons[k].colonies;
  }

  /** Prefixed generated names keep their identifier as their last word, so
      the identifier-keeping rename replaces exactly the prefix. */
  lemma {:induction false} RenameAfterPrefix(sys: System, newName: string)
    requires StandardNames(sys.planets)
    requires forall i :: 0 <= i < |sys.planets| ==> |sys.planets[i].moons| <= 26
    ensures NamesHaveWords(PrefixNames(sys).planets)
    ensures RenameSystem(PrefixNames(sys), newName) == PrefixNames(sys.(name := newName))
  {
    PrefixedStandardWords(sys);
    var lhs := RenameSystem(PrefixNames(sys), newName);
    var rhs := PrefixNames(sys.(name := newName));
    forall i | 0 <= i < |sys.planets|
      ensures lhs.planets[i] == rhs.planets[i]
    {
      RenamedPlanetAfterPrefix(sys, newName, i);
    }
    assert lhs.planets == rhs.planets;
  }

  /** The rename offered after the system is read out: each planet keeps
      only the last character of its name and each moon the last two
      characters behind the new system name. A planet with an empty name
      would make the game fail, so names must not be empty. */
  function RenameByTail(sys: System, newName: string): (r: System)
    requires forall i :: 0 <= i < |sys.planets| ==> |sys.planets[i].name| > 0
    ensures r.name == newName && r.stars == sys.stars
    ensures SameLayout(sys.planets, r.planets)
    ensures forall i :: 0 <= i < |r.planets| ==>
      r.planets[i].name == newName + " " + [LastChar(sys.planets[i].name)]
    ensures forall i, k :: 0 <= i < |r.planets| && 0 <= k < |r.planets[i].moons| ==>
      r.planets[i].moons[k].name == newName + " " + TakeLast(sys.planets[i].moons[k].name, 2)
  {
    var planets := seq(|sys.planets|, i requires 0 <= i < |sys.planets| =>
      var p := sys.planets[i];
      p.(name := newName + " " + [LastChar(p.name)],
         moons := seq(|p.moons|, k requires 0 <= k < |p.moons| =>
           p.moons[k].(name := newName + " " + TakeLast(p.moons[k].name, 2)))));
    System(sys.stars, planets, newName)
  }

  /** Prefixed names are never empty: they hold at least the space. */
  lemma PrefixedNamesNotEmpty(sys: System)
    ensures forall i :: 0 <= i < |PrefixNames(sys).planets| ==> |PrefixNames(sys).planets[i].name| > 0
    ensures forall b :: ValidRef(PrefixNames(sys).planets, b) ==> |BodyName(PrefixNames(sys).planets, b)| > 0
  {
    var p := PrefixNames(sys);
    forall i | 0 <= i < |p.planets|
      ensures |p.planets[i].name| > 0
    {
      assert BodyName(p.planets, PlanetRef(i)) == p.planets[i].name;
    }
    forall b | ValidRef(p.planets, b)
      ensures |BodyName(p.planets, b)| > 0
    {
      assert BodyName(p.planets, b) == sys.name + " " + BodyName(sys.planets, b);
    }
  }

  /** One planet of a prefixed generated system with at most nine planets,
      renamed by its tail, is the planet prefixed with the new name. */
  lemma {:induction false} TailRenamedPlanet(sys: System, newName: string, i: nat)
    requires StandardNames(sys.planets)
    requires i < |sys.planets| && i < 9
    requires forall b :: ValidRef(PrefixNames(sys).planets, b) ==> |BodyName(PrefixNames(sys).planets, b)| > 0
    ensures RenameByTail(PrefixNames(sys), newName).planets[i] == PrefixNames(sys.(name := newName)).planets[i]
  {
    var p := PrefixNames(sys).planets;
    var lhs := RenameByTail(PrefixNames(sys), newName).planets;
    var rhs := PrefixNames(sys.(name := newName)).planets;
    var digits := NatToString(i + 1);
    assert |digits| == 1;
    assert BodyName(p, PlanetRef(i)) == p[i].name == sys.name + " " + digits;
    assert BodyName(rhs, PlanetRef(i)) == rhs[i].name == newName + " " + digits;
    assert [LastChar(p[i].name)] == digits;
    forall k | 0 <= k < |sys.planets[i].moons|
      ensures lhs[i].moons[k] == rhs[i].moons[k]
    {
      assert ValidRef(sys.planets, MoonRef(i, k));
      var moon := MoonName(digits, k);
      assert BodyName(p, MoonRef(i, k)) == p[i].moons[k].name == sys.name + " " + moon;
      assert BodyName(rhs, MoonRef(i, k)) == rhs[i].moons[k].name == newName + " " + moon;
      assert |moon| == 2;
      assert TakeLast(p[i].moons[k].name, 2) == moon;
    }
    assert lhs[i].moons == rhs[i].moons;
  }

  /** Up to nine planets the tail rename and the identifier-keeping rename
      agree on generated systems read out with their prefix. */
  lemma {:induction false} TailRenameAgreesBelowTen(sys: System, newName: string)
    requires StandardNames(sys.planets)
    requires |sys.planets| <= 9
    requires forall i :: 0 <= i < |sys.planets| ==> |sys.planets[i].moons| <= 26
    ensures forall i :: 0 <= i < |PrefixNames(sys).planets| ==> |PrefixNames(sys).planets[i].name| > 0
    ensures NamesHaveWords(PrefixNames(sys).planets)
    ensures RenameByTail(PrefixNames(sys), newName) == RenameSystem(PrefixNames(sys), newName)
  {
    PrefixedNamesNotEmpty(sys);
    RenameAfterPrefix(sys, newName);
    var lhs := RenameByTail(PrefixNames(sys), newName).planets;
    var rhs := PrefixNames(sys.(name := newName)).planets;
    forall i | 0 <= i < |sys.planets|
      ensures lhs[i] == rhs[i]
    {
      TailRenamedPlanet(sys, newName, i);
    }
    assert lhs == rhs;
  }

  /** From the tenth planet on the tail rename loses digits: the tenth
      planet, read out as `<system> 10`, is renamed `<new> 0`, while the
      identifier-keeping rename gives `<new> 10`. */
  lemma {:induction false} TailRenameLosesDigits(sys: System, newName: string)
    requires StandardNames(sys.planets)
    requires |sys.planets| >= 10
    requires forall i :: 0 <= i < |sys.planets| ==> |sys.planets[i].moons| <= 26
    ensures forall i :: 0 <= i < |PrefixNames(sys).planets| ==> |PrefixNames(sys).planets[i].name| > 0
    ensures NamesHaveWords(PrefixNames(sys).planets)
    ensures PrefixNames(sys).planets[9].name == sys.name + " 10"
    ensures RenameByTail(PrefixNames(sys), newName).planets[9].name == newName + " 0"
    ensures RenameSystem(PrefixNames(sys), newName).planets[9].name == newName + " 10"
  {
    PrefixedNamesNotEmpty(sys);
    PrefixedNamesHaveWords(sys);
    PrefixedTenthName(sys);
    var p := PrefixNames(sys).planets;
    assert [LastChar(p[9].name)] == "0";
    LastWordOfJoin(sys.name, "10");
    JoinLiterals(newName);
  }

  /** The names `<a> 0`, `<a> 1`, `<a> 10` and `<a> 11`, built as a name,
      a space and a word. */
  lemma JoinLiterals(a: string)
    ensures a + " " + "0" == a + " 0"
    ensures a + " " + "1" == a + " 1"
    ensures a + " " + "10" == a + " 10"
    ensures a + " " + "11" == a + " 11"
  {
  }

  /** The tenth generated planet is named `10`, and `<system> 10` once
      read out. */
  lemma {:induction false} PrefixedTenthName(sys: System)
    requires StandardNames(sys.planets)
    requires |sys.planets| >= 10
    ensures sys.planets[9].name == "10"
    ensures PrefixNames(sys).planets[9].name == sys.name + " 10"
  {
    var p := PrefixNames(sys).planets;
    assert NatToString(10) == "10" by {
      assert NatToString(1) == "1";
    }
    assert BodyName(sys.planets, PlanetRef(9)) == sys.planets[9].name;
    assert BodyName(p, PlanetRef(9)) == p[9].name;
  }

  /** With eleven planets the tail rename gives the first and the eleventh
      planet the same name, `<new> 1`, so the body index holds only one of
      them under that key: the first planet can no longer be found. */
  lemma {:induction false} TailRenameCollides(sys: System, newName: string)
    requires StandardNames(sys.planets)
    requires |sys.planets| >= 11
    ensures forall i :: 0 <= i < |PrefixNames(sys).planets| ==> |PrefixNames(sys).planets[i].name| > 0
    ensures var r := RenameByTail(PrefixNames(sys), newName);
      && r.planets[0].name == newName + " 1"
      && r.planets[10].name == newName + " 1"
      && Lower(newName + " 1") in CelestialDict(r)
      && CelestialDict(r)[Lower(newName + " 1")] != PlanetRef(0)
  {
    PrefixedNamesNotEmpty(sys);
    var r := RenameByTail(PrefixNames(sys), newName);
    TailRenameNamesOneAndEleven(sys, newName);
    ShadowedPlanet(r, 0, 10);
  }

  lemma {:induction false} TailRenameNamesOneAndEleven(sys: System, newName: string)
    requires StandardNames(sys.planets)
    requires |sys.planets| >= 11
    requires forall i :: 0 <= i < |PrefixNames(sys).planets| ==> |PrefixNames(sys).planets[i].name| > 0
    ensures RenameByTail(PrefixNames(sys), newName).planets[0].name == newName + " 1"
    ensures RenameByTail(PrefixNames(sys), newName).planets[10].name == newName + " 1"
  {
    var p := PrefixNames(sys).planets;
    JoinLiterals(sys.name);
    JoinLiterals(newName);
    assert NatToString(1) == "1";
    assert NatToString(11) == "11";
    assert p[0].name == sys.name + " 1" by {
      assert BodyName(sys.planets, PlanetRef(0)) == sys.planets[0].name;
      assert BodyName(p, PlanetRef(0)) == p[0].name;
    }
    assert p[10].name == sys.name + " 11" by {
      assert BodyName(sys.planets, PlanetRef(10)) == sys.planets[10].name;
      assert BodyName(p, PlanetRef(10)) == p[10].name;
    }
  }

  // ------------------------------------------------------------ join_players

  /** The name a player gets when the players are not named: `Player 1`,
      `Player 2`, and so on. */
  function DefaultPlayerName(i: nat): string {
    "Player " + NatToString(i + 1)
  }

  /** `join_players`: `count` players, accepted by the prompt only between
      2 and 8, named by the given names or by default, owning nothing. */
  function JoinPlayers(count: int, names: Option<seq<string>>): (r: seq<Player>)
    requires NumAccepts(count, 2, Some(8))
    requires names.Some? ==> |names.value| == count
    ensures 2 <= |r| == count <= 8
    ensures forall i :: 0 <= i < |r| ==>
      && r[i].netWorth == 0 && r[i].ownedColonies == map[] && r[i].ownedFleets == map[]
      && r[i].name == if names.Some? then names.value[i] else DefaultPlayerName(i)
  {
    seq(count, i requires 0 <= i < count =>
      NewPlayer(if names.Some? then names.value[i] else DefaultPlayerName(i)))
  }

  /** Unnamed players get pairwise different names, each ending in the
      player's position counted from one. */
  lemma {:induction false} DefaultNamesDistinct(count: int)
    requires NumAccepts(count, 2, Some(8))
    ensures forall i, j :: 0 <= i < j < count ==>
      JoinPlayers(count, None)[i].name != JoinPlayers(count, None)[j].name
    ensures forall i :: 0 <= i < count ==>
      HasNonSpace(JoinPlayers(count, None)[i].name) && LastWord(JoinPlayers(count, None)[i].name) == NatToString(i + 1)
  {
    var r := JoinPlayers(count, None);
    forall i, j | 0 <= i < j < count
      ensures r[i].name != r[j].name
    {
      assert r[i].name[7..] == NatToString(i + 1) != NatToString(j + 1) == r[j].name[7..];
    }
    forall i | 0 <= i < count
      ensures HasNonSpace(r[i].name) && LastWord(r[i].name) == NatToString(i + 1)
    {
      NatToStringIsWord(i + 1);
      assert r[i].name == "Player" + " " + NatToString(i + 1);
      LastWordOfJoin("Player", NatToString(i + 1));
    }
  }
}

=== FILE: session.dfy ===
/** A game session as a state machine: the world after setup, the turn
    operations players issue, and the invariant every operation keeps,
    above all that no planet or moon ever holds more colonies than its
    area. */
module Session {
  import opened Wrappers
  import opened Text
  import opened Entities
  import opened Generation
  import opened Play

  // -------------------------------------------------------------- invariant

  /** Every colony a body holds is in the arena. */
  ghost predicate BodiesCoherent(w: World) {
    forall b, k :: ValidRef(w.system.planets, b) && k in BodyColonies(w.system.planets, b) ==>
      BodyColonies(w.system.planets, b)[k] < |w.colonies|
  }

  /** Every colony has an owner among the players, and every fleet docked at
      it is in the arena, filed under its own name. */
  ghost predicate ColoniesCoherent(w: World) {
    forall c :: 0 <= c < |w.colonies| ==>
      && w.colonies[c].owner < |w.players|
      && forall k :: k in w.colonies[c].docked ==>
        w.colonies[c].docked[k] < |w.fleets| && w.fleets[w.colonies[c].docked[k]].name == k
  }

  /** What a player owns is in the arenas and owned by that player; colonies
      are filed under their lower-cased names and fleets under their names. */
  ghost predicate PlayersCoherent(w: World) {
    forall p :: 0 <= p < |w.players| ==>
      && (forall k :: k in w.players[p].ownedColonies ==>
            var c := w.players[p].ownedColonies[k];
            c < |w.colonies| && w.colonies[c].owner == p && Lower(w.colonies[c].name) == k)
      && (forall k :: k in w.players[p].ownedFleets ==>
            var f := w.players[p].ownedFleets[k];
            f < |w.fleets| && w.fleets[f].owner == p && w.fleets[f].name == k)
  }

  /** Every fleet has an owner among the players and at least one ship, and
      each of its ships names it as its fleet. */
  ghost predicate FleetsCoherent(w: World) {
    forall i :: 0 <= i < |w.fleets| ==>
      && w.fleets[i].owner < |w.players|
      && |w.fleets[i].members| > 0
      && forall j :: 0 <= j < |w.fleets[i].members| ==> w.fleets[i].members[j].parentFleet == w.fleets[i].name
  }

  ghost predicate Valid(w: World) {
    && WithinCapacity(w.system.planets)
    && BodiesCoherent(w)
    && ColoniesCoherent(w)
    && PlayersCoherent(w)
    && FleetsCoherent(w)
  }

  /** The bodies of two systems have the same names and areas. */
  ghost predicate SameBodies(ps: seq<Planet>, qs: seq<Planet>) {
    && (forall b :: ValidRef(ps, b) <==> ValidRef(qs, b))
    && forall b :: ValidRef(ps, b) ==> BodyName(ps, b) == BodyName(qs, b) && BodyArea(ps, b) == BodyArea(qs, b)
  }

  // ------------------------------------------------------------------ setup

  /** The system as play begins: the generated system under its chosen
      name, its bodies read out with that name in front, then renamed when
      the players ask for a new name. The renaming is the one that keeps
      each body's identifier. */
  function SetupSystem(c: Config, systemName: string, rename: Option<string>): (sys: System)
    requires ValidConfig(c)
    ensures sys.name == (if rename.Some? then rename.value else systemName)
    ensures sys.stars == GenerateSystem(c).stars
    ensures SameLayout(GenerateSystem(c).planets, sys.planets)
    ensures rename.None? ==> forall b :: ValidRef(GenerateSystem(c).planets, b) ==>
      BodyName(sys.planets, b) == systemName + " " + BodyName(GenerateSystem(c).planets, b)
    ensures Uncolonised(sys.planets) && WithinCapacity(sys.planets)
  {
    var generated := GenerateSystem(c);
    var named := PrefixNames(generated.(name := systemName));
    SameLayoutCapacity(generated.planets, named.planets);
    PrefixedNamesHaveWords(generated.(name := systemName));
    if rename.None? then named
    else
      var sys := RenameSystem(named, rename.value);
      SameLayoutCapacity(named.planets, sys.planets);
      sys
  }

  /** Renaming at setup gives the system the players would have had by
      choosing the new name in the first place, as long as no planet has
      more moons than there are letters. */
  lemma {:induction false} RenameAtSetup(c: Config, systemName: string, newName: string)
    requires ValidConfig(c)
    requires forall i :: 0 <= i < |GenerateSystem(c).planets| ==> |GenerateSystem(c).planets[i].moons| <= 26
    ensures SetupSystem(c, systemName, Some(newName)) == SetupSystem(c, newName, None)
  {
    RenameAfterPrefix(GenerateSystem(c).(name := systemName), newName);
    assert GenerateSystem(c).(name := systemName).(name := newName) == GenerateSystem(c).(name := newName);
  }

  /** No two bodies of the system as play begins share a name, so the body
      index files every body under its own lower-cased name. */
  lemma {:induction false} SetupIndexesEveryBody(c: Config, systemName: string, rename: Option<string>)
    requires ValidConfig(c)
    requires rename.Some? ==>
      forall i :: 0 <= i < |GenerateSystem(c).planets| ==> |GenerateSystem(c).planets[i].moons| <= 26
    ensures DistinctKeys(SetupSystem(c, systemName, rename).planets)
    ensures forall b :: ValidRef(SetupSystem(c, systemName, rename).planets, b) ==>
      CelestialDict(SetupSystem(c, systemName, rename))[BodyKey(SetupSystem(c, systemName, rename).planets, b)] == b
  {
    var generated := GenerateSystem(c);
    var name := if rename.Some? then rename.value else systemName;
    if rename.Some? {
      RenameAtSetup(c, systemName, rename.value);
    }
    var sys := SetupSystem(c, name, None);
    assert sys == SetupSystem(c, systemName, rename);
    StandardNamesDistinct(generated.planets);
    PrefixKeepsDistinctKeys(generated.(name := name));
    forall b | ValidRef(sys.planets, b)
      ensures CelestialDict(sys)[BodyKey(sys.planets, b)] == b
    {
      CelestialDictFindsEveryBody(sys, b);
    }
  }

  /** The world when play begins: the joined players and no colonies,
      fleets or colony names yet. */
  function Setup(c: Config, systemName: string, rename: Option<string>, players: seq<Player>): (w: World)
    requires ValidConfig(c)
    requires forall p :: 0 <= p < |players| ==> players[p].ownedColonies == map[] && players[p].ownedFleets == map[]
    ensures Valid(w)
    ensures w.players == players && w.system.name == (if rename.Some? then rename.value else systemName)
  {
    World(SetupSystem(c, systemName, rename), players, [], [], {})
  }

  // ------------------------------------------------------------ preservation

  /** The change a successful establishment makes: one colony of the
      player's appended to the arena, filed under `key` in body `b` and in
      the player's colonies, with a name that lower-cases to `key`. */
  ghost predicate AddsColony(w: World, w': World, player: nat, b: BodyRef, key: string) {
    && player < |w.players|
    && ValidRef(w.system.planets, b)
    && |w'.colonies| == |w.colonies| + 1
    && w'.colonies[..|w.colonies|] == w.colonies
    && w'.colonies[|w.colonies|].owner == player
    && w'.colonies[|w.colonies|].docked == map[]
    && Lower(w'.colonies[|w.colonies|].name) == key
    && (forall x :: ValidRef(w'.system.planets, x) <==> ValidRef(w.system.planets, x))
    && (forall x :: ValidRef(w.system.planets, x) ==>
          BodyColonies(w'.system.planets, x) ==
            if x == b then BodyColonies(w.system.planets, b)[key := |w.colonies|] else BodyColonies(w.system.planets, x))
    && w'.fleets == w.fleets
    && |w'.players| == |w.players|
    && w'.players[player] == w.players[player].(ownedColonies := w.players[player].ownedColonies[key := |w.colonies|])
    && (forall p :: 0 <= p < |w.players| && p != player ==> w'.players[p] == w.players[p])
  }

  lemma {:induction false} EstablishAddsColony(w: World, player: nat, query: string, name: string)
    requires player < |w.players|
    ensures EstablishColony(w, player, query, name).Success? ==>
      AddsColony(w, EstablishColony(w, player, query, name).value, player, Locate(w.system.planets, query).value, Lower(name))
  {
    var r := EstablishColony(w, player, query, name);
    if r.Success? {
      LowerIdempotent(name);
      assert r.value.colonies[..|w.colonies|] == w.colonies;
    }
  }

  lemma {:induction false} AddsColonyBodies(w: World, w': World, player: nat, b: BodyRef, key: string)
    requires Valid(w) && AddsColony(w, w', player, b, key)
    ensures BodiesCoherent(w')
  {
  }

  lemma {:induction false} AddsColonyColonies(w: World, w': World, player: nat, b: BodyRef, key: string)
    requires Valid(w) && AddsColony(w, w', player, b, key)
    ensures ColoniesCoherent(w')
  {
    forall c | 0 <= c < |w'.colonies|
      ensures w'.colonies[c].owner < |w'.players|
      ensures forall k :: k in w'.colonies[c].docked ==>
        w'.colonies[c].docked[k] < |w'.fleets| && w'.fleets[w'.colonies[c].docked[k]].name == k
    {
      if c < |w.colonies| {
        assert w'.colonies[c] == w'.colonies[..|w.colonies|][c];
      }
    }
  }

  lemma {:induction false} AddsColonyPlayers(w: World, w': World, player: nat, b: BodyRef, key: string)
    requires Valid(w) && AddsColony(w, w', player, b, key)
    ensures PlayersCoherent(w')
  {
    assert forall c :: 0 <= c < |w.colonies| ==> w'.colonies[c] == w'.colonies[..|w.colonies|][c];
    forall p | 0 <= p < |w'.players|
      ensures forall k :: k in w'.players[p].ownedColonies ==>
        var i := w'.players[p].ownedColonies[k];
        i < |w'.colonies| && w'.colonies[i].owner == p && Lower(w'.colonies[i].name) == k
      ensures forall k :: k in w'.players[p].ownedFleets ==>
        var f := w'.players[p].ownedFleets[k];
        f < |w'.fleets| && w'.fleets[f].owner == p && w'.fleets[f].name == k
    {
      assert w'.players[p].ownedFleets == w.players[p].ownedFleets;
    }
  }

  lemma {:induction false} EstablishKeepsValid(w: World, player: nat, query: string, name: string)
    requires Valid(w) && player < |w.players|
    ensures EstablishColony(w, player, query, name).Success? ==> Valid(EstablishColony(w, player, query, name).value)
  {
    var r := EstablishColony(w, player, query, name);
    if r.Success? {
      var w' := r.value;
      var b := Locate(w.system.planets, query).value;
      EstablishKeepsCapacity(w, player, query, name);
      EstablishAddsColony(w, player, query, name);
      AddsColonyBodies(w, w', player, b, Lower(name));
      AddsColonyColonies(w, w', player, b, Lower(name));
      AddsColonyPlayers(w, w', player, b, Lower(name));
      assert FleetsCoherent(w') by {
        assert w'.fleets == w.fleets && |w'.players| == |w.players|;
      }
    }
  }

  /** The change a successful purchase makes: one fleet of the player's
      appended to the arena, docked at colony `c` and filed in the player's
      fleets under its name, and nothing else. */
  ghost predicate AddsFleet(w: World, w': World, player: nat, c: nat, fleet: Fleet) {
    && player < |w.players| && c < |w.colonies|
    && w'.system == w.system
    && fleet.owner == player && |fleet.members| > 0
    && (forall j :: 0 <= j < |fleet.members| ==> fleet.members[j].parentFleet == fleet.name)
    && w'.fleets == w.fleets + [fleet]
    && |w'.colonies| == |w.colonies|
    && w'.colonies[c] == w.colonies[c].(docked := w.colonies[c].docked[fleet.name := |w.fleets|])
    && (forall i :: 0 <= i < |w.colonies| && i != c ==> w'.colonies[i] == w.colonies[i])
    && |w'.players| == |w.players|
    && w'.players[player] == w.players[player].(ownedFleets := w.players[player].ownedFleets[fleet.name := |w.fleets|])
    && (forall p :: 0 <= p < |w.players| && p != player ==> w'.players[p] == w.players[p])
  }

  lemma {:induction false} AddsFleetColonies(w: World, w': World, player: nat, c: nat, fleet: Fleet)
    requires Valid(w) && AddsFleet(w, w', player, c, fleet)
    ensures ColoniesCoherent(w')
  {
    assert forall i :: 0 <= i < |w.fleets| ==> w'.fleets[i] == w.fleets[i];
    assert w'.fleets[|w.fleets|] == fleet;
    forall i | 0 <= i < |w'.colonies|
      ensures w'.colonies[i].owner < |w'.players|
      ensures forall k :: k in w'.colonies[i].docked ==>
        w'.colonies[i].docked[k] < |w'.fleets| && w'.fleets[w'.colonies[i].docked[k]].name == k
    {
    }
  }

  lemma {:induction false} AddsFleetPlayers(w: World, w': World, player: nat, c: nat, fleet: Fleet)
    requires Valid(w) && AddsFleet(w, w', player, c, fleet)
    ensures PlayersCoherent(w')
  {
    assert forall i :: 0 <= i < |w.fleets| ==> w'.fleets[i] == w.fleets[i];
    assert w'.fleets[|w.fleets|] == fleet;
    forall p | 0 <= p < |w'.players|
      ensures forall k :: k in w'.players[p].ownedColonies ==>
        var i := w'.players[p].ownedColonies[k];
        i < |w'.colonies| && w'.colonies[i].owner == p && Lower(w'.colonies[i].name) == k
      ensures forall k :: k in w'.players[p].ownedFleets ==>
        var f := w'.players[p].ownedFleets[k];
        f < |w'.fleets| && w'.fleets[f].owner == p && w'.fleets[f].name == k
    {
      assert w'.players[p].ownedColonies == w.players[p].ownedColonies;
    }
  }

  lemma {:induction false} AddsFleetFleets(w: World, w': World, player: nat, c: nat, fleet: Fleet)
    requires Valid(w) && AddsFleet(w, w', player, c, fleet)
    ensures FleetsCoherent(w')
  {
    assert forall i :: 0 <= i < |w.fleets| ==> w'.fleets[i] == w.fleets[i];
    assert w'.fleets[|w.fleets|] == fleet;
  }

  lemma {:induction false} PurchaseAddsFleet(w: World, player: nat, buildLine: string, siteLine: string,
                                             customName: Option<string>, merge: bool)
    requires player < |w.players|
    requires forall k :: k in w.players[player].ownedColonies ==> w.players[player].ownedColonies[k] < |w.colonies|
    ensures
      var r := PurchaseShip(w, player, buildLine, siteLine, customName, merge);
      var owned := w.players[player].ownedColonies;
      r.Success? ==>
        && SiteKey(owned, siteLine) in owned
        && |r.value.world.fleets| == |w.fleets| + 1
        && AddsFleet(w, r.value.world, player, owned[SiteKey(owned, siteLine)], r.value.world.fleets[|w.fleets|])
  {
  }

  lemma {:induction false} PurchaseKeepsValid(w: World, player: nat, buildLine: string, siteLine: string,
                                              customName: Option<string>, merge: bool)
    requires Valid(w) && player < |w.players|
    ensures PurchaseShip(w, player, buildLine, siteLine, customName, merge).Success? ==>
      Valid(PurchaseShip(w, player, buildLine, siteLine, customName, merge).value.world)
  {
    var r := PurchaseShip(w, player, buildLine, siteLine, customName, merge);
    if r.Success? {
      PurchaseAddsFleet(w, player, buildLine, siteLine, customName, merge);
      var w' := r.value.world;
      var owned := w.players[player].ownedColonies;
      var c := owned[SiteKey(owned, siteLine)];
      var fleet := w'.fleets[|w.fleets|];
      AddsFleetColonies(w, w', player, c, fleet);
      AddsFleetPlayers(w, w', player, c, fleet);
      AddsFleetFleets(w, w', player, c, fleet);
    }
  }

  lemma {:induction false} MoveKeepsValid(w: World, player: nat, fleetName: string, destination: Place)
    requires Valid(w) && player < |w.players|
    ensures Valid(MoveOwnedFleet(w, player, fleetName, destination))
  {
    var w' := MoveOwnedFleet(w, player, fleetName, destination);
    assert forall i :: 0 <= i < |w.fleets| ==>
      w'.fleets[i].name == w.fleets[i].name && w'.fleets[i].owner == w.fleets[i].owner && w'.fleets[i].members == w.fleets[i].members;
  }

  // ------------------------------------------------------------------ turns

  /** What a player can do on their turn: establish a colony on a named
      body under a name, purchase a ship, or move a fleet they own. */
  datatype TurnOp =
    | Establish(player: nat, query: string, colonyName: string)
    | Purchase(player: nat, buildLine: string, siteLine: string, shipName: Option<string>, merge: bool)
    | Move(player: nat, fleetName: string, destination: Place)

  /** One operation. A rejected establishment or purchase leaves the world
      as it was. */
  function Step(w: World, op: TurnOp): (w': World)
    requires Valid(w) && op.player < |w.players|
    ensures Valid(w')
    ensures |w'.players| == |w.players|
    ensures w'.system.name == w.system.name && w'.system.stars == w.system.stars
    ensures SameBodies(w.system.planets, w'.system.planets)
  {
    match op
    case Establish(p, query, name) =>
      EstablishKeepsValid(w, p, query, name);
      var r := EstablishColony(w, p, query, name);
      if r.Success? then r.value else w
    case Purchase(p, buildLine, siteLine, shipName, merge) =>
      PurchaseKeepsValid(w, p, buildLine, siteLine, shipName, merge);
      var r := PurchaseShip(w, p, buildLine, siteLine, shipName, merge);
      if r.Success? then r.value.world else w
    case Move(p, fleetName, destination) =>
      MoveKeepsValid(w, p, fleetName, destination);
      MoveOwnedFleet(w, p, fleetName, destination)
  }

  /** Operations one after another. */
  function Run(w: World, ops: seq<TurnOp>): (w': World)
    requires Valid(w)
    requires forall i :: 0 <= i < |ops| ==> ops[i].player < |w.players|
    ensures Valid(w')
    ensures |w'.players| == |w.players|
    ensures SameBodies(w.system.planets, w'.system.planets)
    decreases |ops|
  {
    if |ops| == 0 then w
    else Run(Step(w, ops[0]), ops[1..])
  }

  /** Whatever the players do, no body ever holds more colonies than its
      area, and a body of area zero holds none. */
  lemma {:induction false} CapacityUnderAnyRun(c: Config, systemName: string, rename: Option<string>, players: seq<Player>,
                                                ops: seq<TurnOp>)
    requires ValidConfig(c)
    requires forall p :: 0 <= p < |players| ==> players[p].ownedColonies == map[] && players[p].ownedFleets == map[]
    requires forall i :: 0 <= i < |ops| ==> ops[i].player < |players|
    ensures
      var w := Run(Setup(c, systemName, rename, players), ops);
      forall b :: ValidRef(w.system.planets, b) ==>
        && |BodyColonies(w.system.planets, b)| <= BodyArea(w.system.planets, b)
        && (BodyArea(w.system.planets, b) == 0 ==> BodyColonies(w.system.planets, b) == map[])
  {
    var w0 := Setup(c, systemName, rename, players);
    assert |w0.players| == |players|;
    var w := Run(w0, ops);
    forall b | ValidRef(w.system.planets, b)
      ensures |BodyColonies(w.system.planets, b)| <= BodyArea(w.system.planets, b)
      ensures BodyArea(w.system.planets, b) == 0 ==> BodyColonies(w.system.planets, b) == map[]
    {
      assert WithinCapacity(w.system.planets);
    }
  }
}

=== FILE: text.dfy ===
/** The string built-ins of the game's host language that its naming and
    input rules depend on: whitespace classification, lower-casing,
    stripping, slicing, splitting off the last word and writing a
    non-negative integer in decimal. */
module Text {

  /** The characters the host language's `str.isspace` accepts; `strip()`
      and `split()` without arguments remove and split on exactly these. */
  predicate IsSpace(c: char) {
    var k := c as int;
    || 9 <= k <= 13
    || 28 <= k <= 32
    || k == 0x85 || k == 0xA0 || k == 0x1680
    || 0x2000 <= k <= 0x200A
    || k == 0x2028 || k == 0x2029 || k == 0x202F || k == 0x205F || k == 0x3000
  }

  predicate AllSpace(s: string) {
    forall k :: 0 <= k < |s| ==> IsSpace(s[k])
  }

  predicate NoSpace(s: string) {
    forall k :: 0 <= k < |s| ==> !IsSpace(s[k])
  }

  predicate HasNonSpace(s: string) {
    exists k :: 0 <= k < |s| && !IsSpace(s[k])
  }

  /** A string with no whitespace at either end, which `strip()` leaves alone. */
  predicate Trimmed(s: string) {
    s == [] || (!IsSpace(s[0]) && !IsSpace(s[|s| - 1]))
  }

  // ---------------------------------------------------------------- lower()

  /** Lower-casing of one character; only the ASCII capitals change. */
  function LowerChar(c: char): char {
    if 'A' <= c <= 'Z' then (c as int + 32) as char else c
  }

  function Lower(s: string): (r: string)
    ensures |r| == |s|
    ensures forall k :: 0 <= k < |s| ==> r[k] == LowerChar(s[k])
  {
    seq(|s|, k requires 0 <= k < |s| => LowerChar(s[k]))
  }

  predicate IsLower(s: string) {
    Lower(s) == s
  }

  lemma LowerIdempotent(s: string)
    ensures Lower(Lower(s)) == Lower(s)
  {
  }

  // ---------------------------------------------------------------- strip()

  /** Drops the leading whitespace. */
  function TrimStart(s: string): (r: string)
    ensures |r| <= |s| && r == s[|s| - |r|..]
    ensures r == [] || !IsSpace(r[0])
    ensures AllSpace(s[..|s| - |r|])
    decreases |s|
  {
    if |s| > 0 && IsSpace(s[0]) then
      var r := TrimStart(s[1..]);
      assert s[1..][|s| - 1 - |r|..] == s[|s| - |r|..];
      assert forall k :: 1 <= k < |s| - |r| ==> s[k] == s[1..][..|s| - 1 - |r|][k - 1];
      r
    else
      s
  }

  /** Drops the trailing whitespace. */
  function TrimEnd(s: string): (r: string)
    ensures |r| <= |s| && r == s[..|r|]
    ensures r == [] || !IsSpace(r[|r| - 1])
    ensures AllSpace(s[|r|..])
    decreases |s|
  {
    if |s| > 0 && IsSpace(s[|s| - 1]) then
      var r := TrimEnd(s[..|s| - 1]);
      assert forall k :: |r| <= k < |s| - 1 ==> s[k] == s[..|s| - 1][|r|..][k - |r|];
      r
    else
      s
  }

  /** The length of the run of whitespace at the front of `s`. */
  function LeadingSpace(s: string): (n: nat)
    ensures n <= |s| && AllSpace(s[..n])
    ensures n == |s| || !IsSpace(s[n])
  {
    var t := TrimStart(s);
    assert t == [] || s[|s| - |t|] == t[0];
    |s| - |t|
  }

  /** `str.strip()` with no argument: the input with the whitespace at both
      ends cut off. `StripIsSlice` says where the cuts fall. */
  function Strip(s: string): (r: string)
    ensures Trimmed(r)
    ensures r == [] <==> AllSpace(s)
  {
    var t := TrimStart(s);
    var r := TrimEnd(t);
    assert r == [] || r[0] == t[0];
    StripEmpty(s, t, r);
    r
  }

  /** The result of `Strip` is the slice of `s` that starts where the
      leading whitespace run ends and stops before a whitespace-only tail.
      Since that slice has no outer whitespace, the cuts are as deep as they
      can be. */
  lemma StripIsSlice(s: string)
    ensures var r, i := Strip(s), LeadingSpace(s);
      && i + |r| <= |s|
      && r == s[i..i + |r|]
      && AllSpace(s[i + |r|..])
  {
    StripUnfolds(s);
    SliceOfSuffix(s, LeadingSpace(s), TrimStart(s), Strip(s));
  }

  /** `Strip` and `LeadingSpace` in terms of the two trims. */
  lemma StripUnfolds(s: string)
    ensures LeadingSpace(s) == |s| - |TrimStart(s)|
    ensures Strip(s) == TrimEnd(TrimStart(s))
  {
  }

  /** A prefix `r` of the suffix `t` of `s` starting at `i`, followed in
      `t` by whitespace only, is the slice of `s` from `i`. */
  lemma {:induction false} SliceOfSuffix(s: string, i: nat, t: string, r: string)
    requires i <= |s| && t == s[i..]
    requires |r| <= |t| && r == t[..|r|] && AllSpace(t[|r|..])
    ensures i + |r| <= |s| && r == s[i..i + |r|] && AllSpace(s[i + |r|..])
  {
    assert s[i..][..|r|] == s[i..i + |r|];
    assert s[i..][|r|..] == s[i + |r|..];
  }

  /** Nothing survives `strip()` exactly when the input is all whitespace. */
  lemma {:induction false} StripEmpty(s: string, t: string, r: string)
    requires t == TrimStart(s) && r == TrimEnd(t)
    ensures r == [] <==> AllSpace(s)
  {
    var i := LeadingSpace(s);
    if r == [] {
      assert t == [];
      assert s[..i] == s;
    } else {
      assert s[i] == t[0];
    }
  }

  /** Stripping a string that already has no outer whitespace changes nothing. */
  lemma StripTrimmed(s: string)
    requires Trimmed(s)
    ensures Strip(s) == s
  {
  }

  /** A word with no outer whitespace survives at the front of `strip()`,
      whatever follows it. */
  lemma {:induction false} StripKeepsLeadingWord(w: string, rest: string)
    requires |w| > 0 && Trimmed(w)
    ensures |Strip(w + rest)| >= |w|
    ensures Strip(w + rest)[..|w|] == w
  {
    var s := w + rest;
    assert s[0] == w[0];
    assert TrimStart(s) == s;
    var r := TrimEnd(s);
    assert Strip(s) == r;
    assert forall k :: |r| <= k < |s| ==> s[k] == s[|r|..][k - |r|];
    assert !IsSpace(s[|w| - 1]) by {
      assert s[|w| - 1] == w[|w| - 1];
    }
    assert r[..|w|] == s[..|w|];
    assert s[..|w|] == w;
  }

  // ---------------------------------------------------------------- slicing

  /** `s[:n]` for a non-negative `n`. */
  function Take(s: string, n: nat): (r: string)
    ensures |r| == if n <= |s| then n else |s|
    ensures r == s[..|r|]
  {
    if n <= |s| then s[..n] else s
  }

  /** `s[-n:]` for a positive `n`: the last `n` characters, or all of them. */
  function TakeLast(s: string, n: nat): (r: string)
    requires n > 0
    ensures |r| == if n <= |s| then n else |s|
    ensures r == s[|s| - |r|..]
  {
    if n <= |s| then s[|s| - n..] else s
  }

  /** `s[-1]`, which fails on the empty string. */
  function LastChar(s: string): char
    requires |s| > 0
  {
    s[|s| - 1]
  }

  // ------------------------------------------------------------- split()[-1]

  /** The run of non-whitespace characters at the very end of `s`. */
  function TrailingWord(s: string): (r: string)
    ensures |r| <= |s| && r == s[|s| - |r|..]
    ensures NoSpace(r)
    ensures |r| == |s| || IsSpace(s[|s| - |r| - 1])
    decreases |s|
  {
    if |s| == 0 || IsSpace(s[|s| - 1]) then []
    else
      var t := s[..|s| - 1];
      var c := s[|s| - 1];
      var r := TrailingWord(t);
      assert t[|t| - |r|..] + [c] == s[|s| - |r| - 1..];
      assert forall k :: 0 <= k < |r| ==> (r + [c])[k] == r[k];
      assert |r| == |t| || s[|s| - |r| - 2] == t[|t| - |r| - 1];
      r + [c]
  }

  /** `s.split()[-1]`: the last whitespace-separated word. Defined only when
      there is a word, since the host language fails on an all-blank string. */
  function LastWord(s: string): (r: string)
    requires HasNonSpace(s)
    ensures |r| > 0 && NoSpace(r)
    ensures exists e ::
      && |r| <= e <= |s|
      && r == s[e - |r|..e]
      && AllSpace(s[e..])
      && (e == |r| || IsSpace(s[e - |r| - 1]))
  {
    var t := TrimEnd(s);
    var r := TrailingWord(t);
    LastWordCut(s, t, r);
    r
  }

  /** Where `LastWord` cuts: the word ends where the trailing whitespace of
      `s` begins. */
  lemma {:induction false} LastWordCut(s: string, t: string, r: string)
    requires HasNonSpace(s)
    requires t == TrimEnd(s) && r == TrailingWord(t)
    ensures |r| > 0
    ensures |r| <= |t| <= |s|
    ensures r == s[|t| - |r|..|t|]
    ensures AllSpace(s[|t|..])
    ensures |r| == |t| || IsSpace(s[|t| - |r| - 1])
  {
    assert forall k :: |t| <= k < |s| ==> s[k] == s[|t|..][k - |t|];
    assert r == s[|t| - |r|..|t|];
    assert |r| == |t| || s[|t| - |r| - 1] == t[|t| - |r| - 1];
  }

  /** A string ending in a non-blank character: its trailing word is the
      trailing word of the rest with that character added. */
  lemma TrailingWordStep(s: string)
    requires |s| > 0 && !IsSpace(s[|s| - 1])
    ensures TrailingWord(s) == TrailingWord(s[..|s| - 1]) + [s[|s| - 1]]
  {
  }

  lemma {:induction false} TrailingWordAfterBreak(pre: string, w: string)
    requires NoSpace(w)
    requires pre == [] || IsSpace(pre[|pre| - 1])
    ensures TrailingWord(pre + w) == w
    decreases |w|
  {
    var s := pre + w;
    if w == [] {
      assert s == pre;
    } else {
      var init := w[..|w| - 1];
      var last := w[|w| - 1];
      assert s[|s| - 1] == last;
      assert s[..|s| - 1] == pre + init;
      TrailingWordStep(s);
      TrailingWordAfterBreak(pre, init);
      assert init + [last] == w;
    }
  }

  /** Joining a prefix and a word with a space and then taking the last word
      gives the word back; with an empty prefix the word alone is returned. */
  lemma LastWordOfJoin(prefix: string, word: string)
    requires |word| > 0 && NoSpace(word)
    ensures HasNonSpace(prefix + " " + word)
    ensures LastWord(prefix + " " + word) == word
  {
    var s := prefix + " " + word;
    assert s[|s| - 1] == word[|word| - 1];
    assert TrimEnd(s) == s;
    TrailingWordAfterBreak(prefix + " ", word);
  }

  lemma LastWordOfWord(word: string)
    requires |word| > 0 && NoSpace(word)
    ensures HasNonSpace(word)
    ensures LastWord(word) == word
  {
    assert !IsSpace(word[|word| - 1]);
    assert TrimEnd(word) == word;
    TrailingWordAfterBreak([], word);
    assert [] + word == word;
  }

  // ------------------------------------------------------------------ str(n)

  function DigitChar(d: nat): (c: char)
    requires d < 10
    ensures '0' <= c <= '9'
  {
    ('0' as int + d) as char
  }

  /** `str(n)` for a non-negative integer: its decimal digits, most
      significant first, without leading zeros. */
  function NatToString(n: nat): (r: string)
    ensures 1 <= |r|
    ensures forall k :: 0 <= k < |r| ==> '0' <= r[k] <= '9'
    ensures n < 10 <==> |r| == 1
    ensures r[|r| - 1] == DigitChar(n % 10)
  {
    if n < 10 then [DigitChar(n)] else NatToString(n / 10) + [DigitChar(n % 10)]
  }

  /** Decimal strings contain no whitespace and no capitals. */
  lemma NatToStringIsWord(n: nat)
    ensures NoSpace(NatToString(n)) && Trimmed(NatToString(n))
    ensures IsLower(NatToString(n))
  {
  }

  /** Distinct numbers are written differently. */
  lemma {:induction false} NatToStringInjective(a: nat, b: nat)
    requires NatToString(a) == NatToString(b)
    ensures a == b
  {
    var s := NatToString(a);
    assert DigitChar(a % 10) == DigitChar(b % 10);
    assert a % 10 == b % 10;
    if a >= 10 {
      assert b >= 10;
      assert NatToString(a / 10) == s[..|s| - 1] == NatToString(b / 10);
      NatToStringInjective(a / 10, b / 10);
    }
  }
}

=== FILE: wrappers.dfy ===
/** Failure-compatible wrappers shared by the other modules. */
module Wrappers {

  /** A value that may be absent: Python's `None` or a value. */
  datatype Option<+T> = None | Some(value: T)

  /** Either a successful value or an error describing why the operation gave up. */
  datatype Result<+R, +E> = Success(value: R) | Failure(error: E)
}
